=== FILE: README.md ===
# ModBuddy, modelled in Dafny

ModBuddy is a small mod manager. The user registers mod folders for a game.
Each game has named profiles: ordered lists of mod names with an `enabled`
flag. Deploying a profile empties the game's mod folder, then rebuilds it as
an overlay of the enabled mods, in profile order. Directories are created, and
every file becomes a hard link to the mod's copy. A later mod overrides an
earlier one file by file. A separate FOMOD reader turns the choices made in an
installer wizard into a dictionary of folders to install.

This project models that core as pure functions over immutable data:

- **Paths** are sequences of components below the filesystem root (`Paths`),
  compared as pathlib compares them (`PathOrder`).
- **The target** is a finite map from path to `Dir` or `Link(source)`
  (`FileSystem`).
- **The settings document** is a typed record (`Settings`).
- **The deploy engine** of `modpack.py` is `ModPack`. Its overlay properties
  are proved in `Overlay`, and the conditions under which it succeeds in
  `DeploySuccess`.
- **The table model** of `models.py` is `ModModel`.
- **The document operations** of `main.py` are `Registry`. Profile duplication
  as written, with Python's reference sharing, is `SharedProfiles`.
- **Target clearing** (`recursive_rmdir`) is `Cleaner`.
- **Clear-then-deploy** (the commit button) is `Commit`.
- **The FOMOD record tree and `handle_results`** are `Fomod`.

Where a call can raise, the model returns a `Result`. Its `Failure` names the
cause, not always the Python exception class:

- `NotFound`: the parent of the path to create or link is missing
  (`FileNotFoundError`), or is a file (`NotADirectoryError`). For `rmdir` or
  `unlink`, it means the path itself is missing.
- `AlreadyExists`: `mkdir` over a file (`FileExistsError`).
- `IsADirectory`: `unlink` of a directory.
- `NotEmpty`: `rmdir` of a directory that still has entries.
- `MissingMod`: an enabled entry names no registered mod. The code raises
  `TypeError` from `input_folder / None` (modpack.py:39).
- `MissingProfile`: the current profile is not in the document. `letsgo_mydudes`
  raises `TypeError` when it iterates `None` (main.py:347-349).
- `TypeError` and `IndexError` of the table model are Python's own.

Some inputs come from outside the program and are passed in as parameters:

- The listing of each mod folder, as the recursive glob yields it
  (`Setup.listings`). The overlay properties hold for any listing. The
  success results (`DeploySuccess`) assume what a top-down glob yields: no
  entry for the folder itself, and every directory listed before its
  contents (`ModPack.ParentFirst`).
- The user's answer to the confirmation question.
- The working directory that a relative game mod folder is resolved against.
- For `Cleaner.Glob`, the order in which the filesystem lists entries. It is
  chosen arbitrarily.

## Model

| member | source | states |
|---|---|---|
| ModPack.StripModFolder | modpack.py:11-12 | the string appended to the destination never starts with a separator and is no longer than the input's path string |
| ModPack.Convert | modpack.py:10-14 | as written, the output always lies at or below the destination, and every appended component is non-empty and free of separators |
| ModPack.Relocate | modpack.py:10-14 | the intended translation: defined exactly for inputs inside the mod folder, where the mod folder plus the part below the destination gives back the input |
| ModPack.RelocateRoundTrip | modpack.py:10-14 | translating back from the destination to the mod folder recovers the input |
| ModPack.ConvertModFolderItself | modpack.py:11-13 | converting the mod folder itself yields the destination folder |
| ModPack.ConvertAgreesWithRelocate | modpack.py:11-13 | if the mod folder's path string does not occur again below it, the input mod folder + rel goes to destination + rel, as intended |
| ModPack.ConvertDropsRepeatedFolder | modpack.py:12 | counterexample: for mod folder /m, the file /m/d/m.e goes to dest/d.e, while the intended place is dest/d/m.e |
| ModPack.CreateFolder | modpack.py:24-26 | `mkdir(exist_ok=True)` succeeds exactly when the path is already a directory, or is absent with a directory as parent; afterwards the path is a directory and nothing else changed |
| ModPack.CreateFolderIdempotent | modpack.py:26 | creating the same folder twice gives what creating it once gives |
| ModPack.HandleSymlinking | modpack.py:16-22 | succeeds exactly when the target is not a directory and its parent is one; afterwards the target is a link to the source and no other path changed |
| ModPack.HandleSymlinkingIdempotent | modpack.py:18-22 | linking the same file twice gives what linking it once gives |
| ModPack.Step | modpack.py:28-33 | one step of the walk writes only its own target path |
| ModPack.Run | modpack.py:29-33 | a successful walk of the operations removes nothing, and every path an operation targets is present afterwards |
| ModPack.AddMod | modpack.py:28-33 | `add_mod`, each entry placed at its intended translation: success removes nothing and leaves every listed entry present below the destination |
| ModPack.AddModAsWrittenAgrees | modpack.py:10-33 | `add_mod` as written, with the `str.replace` translation, performs exactly the modelled walk when the mod folder's path string recurs nowhere below it |
| ModPack.InitializeConfigs | modpack.py:36-41 | a successful deploy has every enabled entry registered (an unregistered one raises) and removes nothing from the target |
| ModPack.InitializeConfigsAsWrittenAgrees | modpack.py:10-41 | `initialize_configs` as written equals the modelled deploy when no enabled mod's folder string recurs below that folder |
| ModPack.OpForTranslates | modpack.py:28-33 | each listed entry of a mod is written at the intended translation of its source path |
| Overlay.UpdatesKeys | modpack.py:28-33 | a run writes exactly the paths its operations target |
| Overlay.RunUpdates | modpack.py:28-33 | a successful run leaves the old target overridden by its write map, in which the last write to each path wins |
| Overlay.RunKeepsWellFormed | modpack.py:24-33 | a successful run keeps the target a tree: every entry hangs below a directory |
| Overlay.RunIdempotent | modpack.py:18-26 | running the same operations again on the result of a successful run changes nothing |
| Overlay.InitializeConfigsRuns | modpack.py:36-41 | when every enabled entry is registered, the fold over the profile runs the concatenated operations of the enabled mods in profile order |
| Overlay.IgnoresDisabled | modpack.py:37-38 | the deploy does exactly what it does for the enabled entries alone |
| Overlay.AllDisabledUnchanged | modpack.py:37-41 | a profile with every entry disabled leaves the target unchanged |
| Overlay.InitializeConfigsIdempotent | modpack.py:36-41 | deploying twice with the same inputs gives the same target as deploying once |
| Overlay.InitializeConfigsKeepsWellFormed | modpack.py:36-41 | a successful deploy keeps the target a tree |
| Overlay.LastEnabledWins | modpack.py:37-41 | a file listed by enabled mod j and by no later enabled mod ends up linked to mod j's copy |
| Overlay.DirectoriesUnion | modpack.py:26 | a directory listed by any enabled mod is a directory after a successful deploy |
| Overlay.OthersUnchanged | modpack.py:28-41 | a path that no enabled mod provides keeps its entry, or stays absent |
| Overlay.WrittenPaths | modpack.py:28-41 | every path some enabled mod provides is present after a successful deploy |
| DeploySuccess.RunSucceeds | modpack.py:16-33 | a walk never raises when each of its paths has its parent directory already there or made earlier, no path is made a directory by one step and linked by another, and no step meets an existing entry of the other kind |
| DeploySuccess.ModOpsParentsMade | modpack.py:28-33 | for a top-down listing placed below an existing directory, every step of `add_mod` finds its parent directory |
| DeploySuccess.DeploySucceeds | modpack.py:36-41 | `initialize_configs` succeeds if four conditions hold: every enabled entry is registered; the enabled mods' listings are top-down glob listings; no path is a directory in one enabled mod and a file in another; and the destination is a directory with nothing below it |
| Settings.EnabledOnly | modpack.py:37-38 | the enabled filter keeps exactly the enabled entries |
| Paths.RemoveAll | modpack.py:12 | `str.replace(pat, '')` never lengthens the string |
| Paths.RemoveAllAbsent | modpack.py:12 | a string in which the pattern never occurs comes out of `replace` unchanged |
| Paths.RemoveAllLeading | modpack.py:12 | a leading occurrence of the pattern is deleted; the rest is scanned on its own |
| Paths.LStrip | modpack.py:12 | `lstrip('/')` removes exactly the leading run of separators: the result is a suffix, does not start with a separator, and only separators were dropped |
| Paths.SplitLStrip | modpack.py:12-13 | leading separators never change what `joinpath` appends |
| Paths.Split | modpack.py:13 | `joinpath` of a relative string appends non-empty components without separators and never "." |
| Paths.SplitRender | modpack.py:11-13 | the string of a resolved path parses back to the same components |
| PathOrder.PathLessIrreflexive | main.py:65 | pathlib's `<` never holds between a path and itself |
| PathOrder.PathLessTransitive | main.py:65 | pathlib's `<` is transitive |
| PathOrder.PathLessTotal | main.py:65 | any two different paths are ordered one way or the other, so `sorted` is well defined |
| PathOrder.PathLessAsymmetric | main.py:65 | pathlib's `<` never holds both ways |
| PathOrder.ProperPrefixSortsFirst | main.py:65 | a directory sorts before every path strictly below it |
| ModModel.ParseModsFromSettings | models.py:16-23 | an empty document leaves the row list empty; otherwise the rows are the profile's list, and `None` when the profile is missing |
| ModModel.RowCount | models.py:76-77 | the row count is the length of the row list; with no list it raises |
| ModModel.Data | models.py:44-57 | the check box shows Checked exactly when the row is enabled; the path column shows `mods[name]`, or nothing when the name is unregistered; it succeeds only on a row that exists |
| ModModel.SetData | models.py:59-65 | with the check-state role on the `enabled` column, only that row's `enabled` changes, to `value == Checked`; any other role or column changes nothing; a missing row or profile raises |
| ModModel.SetDataThenData | models.py:44-65 | after ticking a box, reading it shows the state that was set |
| ModModel.RowCountBoundsData | models.py:44-77 | `data` succeeds exactly on the rows below `rowCount`, for each of the three columns |
| ModModel.Pop | models.py:105 | `list.pop(i)` removes entry i, keeps the rest in order, and raises past the end |
| ModModel.InsertAt | models.py:106 | `list.insert(i, x)` puts x at i, or at the end when i is past it, and shifts the rest |
| ModModel.InsertPermutes | models.py:106 | inserting adds exactly one copy of the element |
| ModModel.SwitchRows | models.py:97-107 | moving a row is a permutation of the rows, and fails exactly when the row is missing; with no row list (profile missing) the `pop` raises `AttributeError` |
| ModModel.SwitchAdjacent | models.py:105-106 | moving a row to the neighbouring index swaps the two neighbours |
| ModModel.SwitchLast | models.py:105-106 | moving the last row past the end puts it back in place |
| ModModel.MoveTargetRowUp | models.py:85-107 | row 0 stays, even with no row list; any other row swaps with the one above; a row past the end raises `IndexError`; with no row list any other row raises `AttributeError` |
| ModModel.MoveTargetRowDown | models.py:76-107 | a row before the last swaps with the one below; the last row and `row == rowCount()` leave the order unchanged; beyond that it raises `IndexError`; with no row list `rowCount()` raises `TypeError` for every row |
| ModModel.MoveDownThenUp | models.py:85-95 | moving a row down and then back up restores the order |
| Registry.AddRowToMods | main.py:294-299 | registers name → path, overwriting any earlier registration of the name, and appends exactly one disabled entry to the end of every profile; existing entries stay in order |
| Registry.SameForEnabled | modpack.py:37-41 | a deploy depends on the registry only through the names of enabled entries |
| Registry.AddRowKeepsDeploy | main.py:294-299 | registering a mod leaves the deploy of every profile unchanged, unless an enabled entry of that profile already uses the name |
| Registry.DuplicateProfile | main.py:137-138 | the new profile equals the current one; other profiles and the registry are unchanged |
| Registry.DuplicateSameNameNoOp | main.py:137-138 | duplicating a profile under its own name changes nothing |
| Registry.DuplicateDeploysSame | main.py:137-138 | the copy deploys exactly as the original |
| Registry.DuplicateThenAddRow | main.py:129-138 | the copy is independent: registering a mod afterwards appends one entry to each of the two profiles |
| Registry.DuplicateThenEditIndependent | main.py:129-138 | the copy is independent: ticking a box in the copy leaves the original unchanged |
| Registry.NewGamePreset | main.py:205-219 | a new game has exactly one profile, `default`, holding one enabled `Base content` entry, and the registry holds only `Base content` |
| Registry.NewGamePresetFolders | main.py:207-219 | the preset's folder strings name the game mod folder, its sibling `.mods`, and `.mods/base_content` |
| Registry.NewGameDeploysBaseContent | main.py:198-219 | deploying the new game's profile adds exactly the base-content folder to the destination |
| Registry.BaseContentOutsideTarget | main.py:190-198 | for a game mod folder that is not the root and not itself named `.mods` (creating the backup folder raises for that name, main.py:192-195), the base content is neither that folder nor below it, so clearing the folder never removes it |
| Registry.EnabledNames | main.py:349 | the listed names are the enabled entries' names, one by one, in profile order |
| Registry.EnabledNamesMembers | main.py:349 | a name is listed before commit exactly when some enabled entry carries it |
| Registry.EnabledNamesRegistered | main.py:349 | every listed name is registered exactly when the deploy will find every enabled mod |
| SharedProfiles.DuplicateProfile | main.py:137-138 | with the current profile present, as written: the new name refers to the same list object as the current profile (`refs[new] == refs[current]`); every other name keeps its object; the heap and the registry are unchanged. A missing current profile gives `MissingProfile` (see "## Left out") |
| SharedProfiles.AddRowToMods | main.py:294-299 | as written: the registry maps the name to the path; `profiles.values()` visits every profile name once, and every list object gets one disabled entry per name that refers to it |
| SharedProfiles.AppendEachHeap | main.py:295-299 | appending through each name of the visiting order adds to each list object exactly as many copies as names refer to it |
| SharedProfiles.UnsharedAppendsOnce | main.py:294-299 | when no two profile names share a list, the code as written appends exactly one disabled entry to every profile |
| SharedProfiles.SharedToggleShowsThrough | main.py:137-138 | as written, ticking a box in the duplicate ticks it in the original too |
| SharedProfiles.SharedAddRowAppendsTwice | main.py:137-138 | counterexample: duplicate `default` as `copy`, then register X; the shared list holds X twice |
| Cleaner.Descendants | main.py:65 | the recursive glob never lists the folder itself |
| Cleaner.Glob | main.py:65 | the glob lists every entry strictly below the folder, each once |
| Cleaner.SortDescending | main.py:65 | `sorted(..., reverse=True)` returns a permutation of the listing |
| Cleaner.InsertSorted | main.py:65 | inserting into a reverse-sorted listing keeps it reverse-sorted |
| Cleaner.SortSorted | main.py:65 | sorting a listing without repeats in reverse gives a strictly descending sequence |
| Cleaner.DescendantsComeFirst | main.py:65-69 | in the deletion order, every path comes after everything strictly below it |
| Cleaner.RemoveEntry | main.py:66-69 | `rmdir` succeeds only on an empty directory and `unlink` on anything present; exactly that entry goes |
| Cleaner.RemovalStep | main.py:65-69 | in reverse-sorted order, each next entry is present and, if a directory, already empty |
| Cleaner.RecursiveRmdir | main.py:64-69 | removes exactly the entries strictly below the folder and never fails; the folder itself stays |
| Commit.ProvidedBelowDest | modpack.py:29 | whatever a mod provides lies strictly below the destination |
| Commit.ClearThenDeploy | main.py:362-364 | after clear-then-deploy, the destination holds exactly the paths the enabled mods provide; outside it nothing changed |
| Commit.ClearThenDeploySucceeds | main.py:362-364 | when the destination is a directory and the listings satisfy `ListingsDeployable`, clearing the destination and then deploying succeeds, whatever was below the destination before |
| Commit.LetsGo | main.py:345-368 | a missing profile fails; the enabled names are listed; without confirmation nothing changes; an unregistered enabled mod fails; once confirmed, the commit succeeds when the destination is a directory and the listings satisfy `ListingsDeployable`; the result is exactly the deploy of the profile onto the target with the destination emptied, so `LastEnabledWins` and `DirectoriesUnion` describe what each path holds; on success the destination holds exactly the provided paths, and nothing outside it changed |
| Fomod.NewPlugin | fomod.py:99-111 | a plugin starts disabled |
| Fomod.Update | fomod.py:113-114 | `update(arg)` sets `enabled` to arg and nothing else |
| Fomod.UpdateLastWins | fomod.py:113-114 | only the last toggle counts |
| Fomod.ToDict | fomod.py:127-132 | the record holds source, destination and priority under their names, unchanged |
| Fomod.ToDictInjective | fomod.py:127-132 | different folders give different records: nothing is lost |
| Fomod.DecimalString | fomod.py:66 | `str(i)` is a non-empty string of digits |
| Fomod.DecimalRoundTrip | fomod.py:66 | the decimal index reads back as the index |
| Fomod.KeyCollision | fomod.py:66 | step 1 with group "2x" and step 12 with group "x" share the key "12x" |
| Fomod.HandleResults | fomod.py:53-67 | the nested loops equal applying, to an empty dictionary, one assignment per folder of every enabled plugin in traversal order (the flattened reference traversal) |
| Fomod.ResultKeys | fomod.py:56-66 | a key is in the result exactly when a folder of an enabled plugin sits under a step index and group name that form it |
| Fomod.ResultValues | fomod.py:62-66 | every value is the record of a folder of an enabled plugin filed under that key |
| Fomod.NothingEnabledEmpty | fomod.py:62 | with no plugin enabled the result is empty |
| Fomod.LastFolderWins | fomod.py:56-66 | when several folders share a key, the last one in traversal order is the one kept |

## Left out

- The Qt user interface is not modelled: windows, dialogs, combo boxes, the file view, `headerData`, `flags`, `columnCount`, the layout signals, and the FOMOD wizard pages (fomod.py:21-51). The user's answers enter as parameters.
- Reading and writing JSON is not modelled (main.py:54-61, main.py:103-118, main.py:145-148, main.py:226-237). The settings document is an in-memory record. `write_preset_to_config` before the commit is left out for the same reason.
- The XML parsing that builds the FOMOD records is not modelled (fomod.py:10-17, fomod.py:69-125). The records are given as parsed. `order`, `type`, `flags`, `description` and `image` are carried but never used by `handle_results`. `priority` is never compared.
- sources.py is not part of this model (web scraping and downloads).
- Archive extraction (main.py:249-269) and the folder dialog of `add_mod` (main.py:271-284) are not modelled. Both are UI or library calls; the registration they end in is `Registry.AddRowToMods`.
- Operating-system semantics are simplified:
  - A regular file in the target is a hard link, recorded with its source.
  - Symbolic links and `resolve()` are not modelled; paths are already resolved.
  - The mod folders and their listings are read-only inputs, separate from the target.
- After a failure the model returns only the error. The part of the target already written before the exception is not modelled.
- The return value of `setData` comes from the Qt base class and is not modelled.
- Row indices are natural numbers. Qt never passes a negative row, so Python's negative indexing is not modelled.
- `create_new_game` is modelled only through the preset it writes (main.py:205-219). Three things are left out:
  - the `.mods` directory creation, which raises if it exists;
  - the base-content copy, whose call at main.py:201-202 passes a `case_sensitive` argument the constructor at modpack.py:5 does not accept, so it raises before the preset is written;
  - the preset file write.
- `move_row_up` / `move_row_down` in the window (main.py:305-317) use an unbound `row` when nothing is selected, and `ModModel.add_row` (models.py:25-36) refers to an attribute that does not exist. Neither is modelled as behaviour. The reordering itself is `ModModel.MoveTargetRowUp` / `MoveTargetRowDown`.
- `clean_target_modfolder` (main.py:331-343) is a confirmation dialog around `recursive_rmdir`, which is `Cleaner.RecursiveRmdir`.
- The confirmation message text (`',\n'.join(...)`) is left out; the listed names are `Registry.EnabledNames`.
- Registry.DuplicateProfile: when the current profile is missing, the code stores `None` under the new name (main.py:137-138), which breaks later calls. The model reports `MissingProfile` instead.
- SharedProfiles.DuplicateProfile: for the same reason, when the current profile is missing the code stores `None` under the new name and writes it to the settings file (main.py:137-140). The model reports `MissingProfile` instead of storing `None`.
- Fomod.HandleResults: the two diagnostic `print` calls (fomod.py:55, fomod.py:64) write to standard output only and are not modelled.
- ModModel.ParseModsFromSettings: the typed document always has a `profiles` entry. The swallowed `AttributeError` for a document without one (models.py:20-23) is not represented.
- ModPack.InitializeConfigs: `DeploySuccess.DeploySucceeds` gives sufficient conditions for success, not an exact characterisation. A deploy onto a destination that already holds compatible entries may also succeed without being covered.
- ModPack.OpFor: `add_mod` is modelled with the intended translation: each entry goes to destination + its path below the mod folder. The code computes the target with `convert_from_input_to_output` (modpack.py:17, modpack.py:25). The `Overlay` and `Commit` properties therefore describe the intended engine. The code as written is `ModPack.AddModAsWritten` / `ModPack.InitializeConfigsAsWritten`. `ModPack.InitializeConfigsAsWrittenAgrees` (through `ModPack.ConvertAgreesWithRelocate`) proves they coincide whenever no enabled mod folder's path string recurs below that folder. Where it does recur, the model does not describe the code; see the first finding.

## Findings

| source | as written | input that shows it | evidently intended | confidence | as-written member | corrected member |
|---|---|---|---|---|---|---|
| modpack.py:12 | `str.replace(mod_folder, '')` deletes every occurrence of the mod folder's path string in the input path, not only the leading one | mod folder /m, file /m/d/m.e: the link is made at dest/d.e | strip only the leading mod-folder prefix, so the link goes to dest/d/m.e | high; not executed | ModPack.ConvertDropsRepeatedFolder | ModPack.Relocate |
| main.py:137-138 | the duplicated profile is the current profile's list object itself, not a copy | duplicate `default` as `copy`, then register mod X: both profiles show X twice, and ticking a box in `copy` also ticks it in `default` | the new profile is an independent copy of the current one | medium; not executed | SharedProfiles.SharedAddRowAppendsTwice | Registry.DuplicateThenAddRow |

The deploy engine uses the corrected translation throughout: every listed
entry goes to destination + its path below the mod folder
(`ModPack.OpForTranslates`). The walk as written is `ModPack.AddModAsWritten`.
`ModPack.AddModAsWrittenAgrees` and `ModPack.InitializeConfigsAsWrittenAgrees`
prove that it does the same whenever the mod folder's string does not recur
below it. Duplication in `Registry` copies the profile; the shared-list
behaviour of the code is modelled separately in `SharedProfiles`.

=== FILE: aliasing.dfy ===
/**
 * Profile duplication as `main.py` performs it in memory. Python's
 * dictionary holds references: `profiles[new] = profiles.get(current)`
 * stores the current profile's list object a second time instead of a copy.
 * Here the document is a heap of list objects and a map from profile name
 * to object, so two names can share one list. `Registry.DuplicateProfile`
 * is the value-copying duplication the rest of the model uses.
 */
module SharedProfiles {
  import opened Wrappers
  import opened Settings
  import opened FileSystem

  /** Profile names refer to list objects kept in `heap`. */
  datatype Doc = Doc(refs: map<string, nat>, heap: map<nat, Profile>, mods: map<string, string>)

  /** Every profile name refers to an allocated list. */
  predicate Valid(d: Doc)
  {
    forall q :: q in d.refs ==> d.refs[q] in d.heap
  }

  /** The list a profile name refers to. */
  function View(d: Doc, q: string): Profile
    requires Valid(d) && q in d.refs
  {
    d.heap[d.refs[q]]
  }

  /** `profiles[newName] = profiles.get(current)` as written: the new name
      refers to the very list object of the current profile. */
  function DuplicateProfile(d: Doc, current: string, newName: string): (r: Result<Doc, Error>)
    requires Valid(d)
    ensures r.Success? <==> current in d.refs
    ensures r.Success? ==> Valid(r.value) && r.value.heap == d.heap && newName in r.value.refs
                           && View(r.value, newName) == View(d, current)
    ensures r.Success? ==> r.value.refs == d.refs[newName := d.refs[current]] && r.value.mods == d.mods
  {
    if current in d.refs then Success(d.(refs := d.refs[newName := d.refs[current]]))
    else Failure(MissingProfile(current))
  }

  /** Appends `x` to the list object profile `q` refers to. */
  function AppendTo(d: Doc, q: string, x: Entry): (r: Doc)
    requires Valid(d) && q in d.refs
    ensures Valid(r) && r.refs == d.refs
  {
    d.(heap := d.heap[d.refs[q] := d.heap[d.refs[q]] + [x]])
  }

  /** How many of the names in `order` refer to list object `o`. */
  function Referrers(refs: map<string, nat>, order: seq<string>, o: nat): nat
    requires forall i :: 0 <= i < |order| ==> order[i] in refs
    decreases |order|
  {
    if |order| == 0 then 0
    else (if refs[order[0]] == o then 1 else 0) + Referrers(refs, order[1..], o)
  }

  /** `n` copies of `x`. */
  function Repeat(x: Entry, n: nat): seq<Entry>
  {
    if n == 0 then [] else [x] + Repeat(x, n - 1)
  }

  /** One append of `x` through each name of `order`, in that order. */
  function AppendEach(d: Doc, order: seq<string>, x: Entry): (r: Doc)
    requires Valid(d) && forall i :: 0 <= i < |order| ==> order[i] in d.refs
    ensures Valid(r) && r.refs == d.refs && r.mods == d.mods && r.heap.Keys == d.heap.Keys
    decreases |order|
  {
    if |order| == 0 then d else AppendEach(AppendTo(d, order[0], x), order[1..], x)
  }

  /** Every list object receives one copy of `x` per name in `order` that
      refers to it. */
  lemma {:induction false} AppendEachHeap(d: Doc, order: seq<string>, x: Entry)
    requires Valid(d) && forall i :: 0 <= i < |order| ==> order[i] in d.refs
    ensures forall o :: o in d.heap ==>
              AppendEach(d, order, x).heap[o] == d.heap[o] + Repeat(x, Referrers(d.refs, order, o))
    decreases |order|
  {
    if |order| > 0 {
      var d1 := AppendTo(d, order[0], x);
      AppendEachHeap(d1, order[1..], x);
      forall o | o in d.heap
        ensures d1.heap[o] + Repeat(x, Referrers(d.refs, order[1..], o))
             == d.heap[o] + Repeat(x, Referrers(d.refs, order, o))
      {
        AppendOneStep(d, order, x, o);
      }
    }
  }

  /** The first name's append, followed by the rest's, is the whole count. */
  lemma AppendOneStep(d: Doc, order: seq<string>, x: Entry, o: nat)
    requires Valid(d) && |order| > 0 && forall i :: 0 <= i < |order| ==> order[i] in d.refs
    requires o in d.heap
    ensures AppendTo(d, order[0], x).heap[o] + Repeat(x, Referrers(d.refs, order[1..], o))
         == d.heap[o] + Repeat(x, Referrers(d.refs, order, o))
  {
    var n := Referrers(d.refs, order[1..], o);
    if d.refs[order[0]] == o {
      assert Repeat(x, n + 1) == [x] + Repeat(x, n);
      assert (d.heap[o] + [x]) + Repeat(x, n) == d.heap[o] + ([x] + Repeat(x, n));
    }
  }

  /** `add_row_to_mods` as written: the registry gets `name`, and
      `profiles.values()` is visited as `order`, which lists every profile
      name once; one disabled entry is appended through each name. */
  function AddRowToMods(d: Doc, order: seq<string>, name: string, path: string): (r: Doc)
    requires Valid(d) && forall i :: 0 <= i < |order| ==> order[i] in d.refs
    requires forall q :: q in d.refs ==> q in order
    requires forall i, j :: 0 <= i < j < |order| ==> order[i] != order[j]
    ensures Valid(r) && r.refs == d.refs && r.mods == d.mods[name := path] && r.heap.Keys == d.heap.Keys
    ensures forall o :: o in d.heap ==> r.heap[o] == d.heap[o] + Repeat(Entry(name, false), Referrers(d.refs, order, o))
  {
    AppendEachHeap(d, order, Entry(name, false));
    AppendEach(d, order, Entry(name, false)).(mods := d.mods[name := path])
  }

  lemma {:induction false} ReferrersNone(refs: map<string, nat>, order: seq<string>, o: nat)
    requires forall i :: 0 <= i < |order| ==> order[i] in refs && refs[order[i]] != o
    ensures Referrers(refs, order, o) == 0
    decreases |order|
  {
    if |order| > 0 {
      ReferrersNone(refs, order[1..], o);
    }
  }

  /** With no two names sharing a list, a name's list is referred to once. */
  lemma {:induction false} ReferrersOne(refs: map<string, nat>, order: seq<string>, q: string)
    requires forall i :: 0 <= i < |order| ==> order[i] in refs
    requires forall i, j :: 0 <= i < j < |order| ==> order[i] != order[j]
    requires forall a, b :: a in refs && b in refs && a != b ==> refs[a] != refs[b]
    requires q in order
    ensures Referrers(refs, order, refs[q]) == 1
    decreases |order|
  {
    if order[0] == q {
      ReferrersNone(refs, order[1..], refs[q]);
    } else {
      ReferrersOne(refs, order[1..], q);
    }
  }

  /** Without sharing, the code as written appends exactly one disabled entry
      to every profile, as the value-copying model does. */
  lemma UnsharedAppendsOnce(d: Doc, order: seq<string>, name: string, path: string, q: string)
    requires Valid(d) && forall i :: 0 <= i < |order| ==> order[i] in d.refs
    requires forall q :: q in d.refs ==> q in order
    requires forall i, j :: 0 <= i < j < |order| ==> order[i] != order[j]
    requires forall a, b :: a in d.refs && b in d.refs && a != b ==> d.refs[a] != d.refs[b]
    requires q in d.refs
    ensures View(AddRowToMods(d, order, name, path), q) == View(d, q) + [Entry(name, false)]
  {
    ReferrersOne(d.refs, order, q);
    assert Repeat(Entry(name, false), 1) == [Entry(name, false)];
  }

  /** Sets `enabled` of one row of the list profile `q` refers to, as
      `setData` does on the list it was given. */
  function SetEnabled(d: Doc, q: string, row: nat, enabled: bool): (r: Doc)
    requires Valid(d) && q in d.refs && row < |View(d, q)|
    ensures Valid(r) && r.refs == d.refs
  {
    d.(heap := d.heap[d.refs[q] := View(d, q)[row := View(d, q)[row].(enabled := enabled)]])
  }

  /** Ticking a box in the duplicate ticks it in the original too. */
  lemma SharedToggleShowsThrough(d: Doc, current: string, newName: string, row: nat, enabled: bool)
    requires Valid(d) && current in d.refs && row < |View(d, current)|
    ensures var dup := DuplicateProfile(d, current, newName).value;
            View(SetEnabled(dup, newName, row, enabled), current)[row].enabled == enabled
  {
    var dup := DuplicateProfile(d, current, newName).value;
    assert dup.refs[newName] == dup.refs[current];
  }

  /** A game with one empty profile "default", duplicated as "copy", then a
      mod "X" registered: the shared list receives two entries for "X", where
      a separate copy would hold one. */
  lemma SharedAddRowAppendsTwice()
    ensures var d := Doc(map["default" := 0], map[0 := []], map[]);
            var dup := DuplicateProfile(d, "default", "copy").value;
            var r := AddRowToMods(dup, ["default", "copy"], "X", "/x");
            View(r, "default") == [Entry("X", false), Entry("X", false)]
            && View(r, "copy") == [Entry("X", false), Entry("X", false)]
  {
    var d := Doc(map["default" := 0], map[0 := []], map[]);
    var dup := DuplicateProfile(d, "default", "copy").value;
    assert dup.refs == map["default" := 0, "copy" := 0];
    var once := AppendTo(dup, "default", Entry("X", false));
    assert once.heap[0] == [Entry("X", false)];
    var twice := AppendTo(once, "copy", Entry("X", false));
    assert twice.heap[0] == [Entry("X", false), Entry("X", false)];
    assert ["default", "copy"][1..] == ["copy"];
    assert ["copy"][1..] == [];
  }
}

=== FILE: cleaner.dfy ===
/**
 * `recursive_rmdir`: every entry below a folder is listed by the recursive
 * glob, the listing is sorted in reverse, and each entry is removed in that
 * order (a directory with `rmdir`, anything else with `unlink`). Reverse
 * order puts every entry before the directories above it, so each `rmdir`
 * meets an empty directory, and the folder itself is never listed.
 */
module Cleaner {
  import opened Wrappers
  import opened Paths
  import opened PathOrder
  import opened FileSystem

  /** The entries strictly below `root`: what the recursive glob yields. */
  function Descendants(fs: Fs, root: Path): (r: set<Path>)
    ensures root !in r
  {
    set p | p in fs && IsProperPrefix(root, p)
  }

  /** Strictly decreasing in pathlib's order, hence without repeats. */
  predicate Descending(s: seq<Path>)
  {
    forall i, j :: 0 <= i < j < |s| ==> PathLess(s[j], s[i])
  }

  predicate Distinct(s: seq<Path>)
  {
    forall i, j :: 0 <= i < j < |s| ==> s[i] != s[j]
  }

  /* ---------------- sorted(..., reverse=True) ---------------- */

  /** Puts `x` into a descending sequence at its place. */
  function Insert(x: Path, s: seq<Path>): seq<Path>
    decreases |s|
  {
    if |s| == 0 then [x]
    else if PathLess(s[0], x) then [x] + s
    else [s[0]] + Insert(x, s[1..])
  }

  /** Sorts in reverse order by insertion. */
  function SortDescending(s: seq<Path>): (r: seq<Path>)
    ensures multiset(r) == multiset(s)
    decreases |s|
  {
    if |s| == 0 then []
    else
      InsertMembers(s[0], SortDescending(s[1..]));
      assert s == [s[0]] + s[1..];
      Insert(s[0], SortDescending(s[1..]))
  }

  /** An element above the head goes in front. */
  lemma PrependSorted(x: Path, s: seq<Path>)
    requires Descending(s) && |s| > 0 && PathLess(s[0], x)
    ensures Descending([x] + s)
  {
    forall j | 0 < j < |s|
      ensures PathLess(s[j], x)
    {
      PathLessTransitive(s[j], s[0], x);
    }
    var r := [x] + s;
    forall i, j | 0 <= i < j < |r|
      ensures PathLess(r[j], r[i])
    {
      if i > 0 {
        assert r[i] == s[i - 1] && r[j] == s[j - 1];
      }
    }
  }

  /** A head above every element of a descending tail keeps it descending. */
  lemma ConsSorted(h: Path, t: seq<Path>)
    requires Descending(t) && forall k :: 0 <= k < |t| ==> PathLess(t[k], h)
    ensures Descending([h] + t)
  {
    var r := [h] + t;
    forall i, j | 0 <= i < j < |r|
      ensures PathLess(r[j], r[i])
    {
      if i > 0 {
        assert r[i] == t[i - 1] && r[j] == t[j - 1];
      }
    }
  }

  /** Insertion adds `x` and keeps every element. */
  lemma {:induction false} InsertMembers(x: Path, s: seq<Path>)
    ensures multiset(Insert(x, s)) == multiset(s) + multiset{x}
    ensures forall y :: y in Insert(x, s) <==> y == x || y in s
    decreases |s|
  {
    if |s| > 0 && !PathLess(s[0], x) {
      InsertMembers(x, s[1..]);
      assert s == [s[0]] + s[1..];
    }
  }

  lemma {:induction false} InsertSorted(x: Path, s: seq<Path>)
    requires Descending(s) && x !in s
    ensures Descending(Insert(x, s))
    decreases |s|
  {
    if |s| == 0 {
    } else if PathLess(s[0], x) {
      PrependSorted(x, s);
    } else {
      PathLessTotal(x, s[0]);
      assert Descending(s[1..]);
      InsertSorted(x, s[1..]);
      InsertMembers(x, s[1..]);
      var t := Insert(x, s[1..]);
      forall k | 0 <= k < |t|
        ensures PathLess(t[k], s[0])
      {
        assert t[k] in t;
        if t[k] != x {
          var j :| 0 <= j < |s| - 1 && s[1..][j] == t[k];
          assert s[j + 1] == t[k];
        }
      }
      ConsSorted(s[0], t);
    }
  }

  /** Sorting a listing without repeats gives a descending permutation of it. */
  lemma {:induction false} SortSorted(s: seq<Path>)
    requires Distinct(s)
    ensures Descending(SortDescending(s))
    decreases |s|
  {
    if |s| > 0 {
      SortSorted(s[1..]);
      var rest := SortDescending(s[1..]);
      forall j | 0 <= j < |s| - 1
        ensures s[1..][j] != s[0]
      {
        assert s[1..][j] == s[j + 1];
      }
      assert s[0] !in multiset(rest);
      InsertSorted(s[0], rest);
      InsertMembers(s[0], rest);
      assert s == [s[0]] + s[1..];
    }
  }

  /** In the deletion order a path comes after everything strictly below it. */
  lemma DescendantsComeFirst(order: seq<Path>, i: nat, j: nat)
    requires Descending(order) && i < |order| && j < |order|
    requires IsProperPrefix(order[i], order[j])
    ensures j < i
  {
    ProperPrefixSortsFirst(order[i], order[j]);
    if i < j {
      PathLessAsymmetric(order[i], order[j]);
    } else if i == j {
      PathLessIrreflexive(order[i]);
    }
  }

  /* ---------------- the deletions ---------------- */

  /** `rmdir` for a directory (which must be empty), `unlink` otherwise. */
  function RemoveEntry(fs: Fs, p: Path): (r: Result<Fs, Error>)
    ensures r.Success? <==> p in fs && (fs[p] == Dir ==> !HasChild(fs, p))
    ensures r.Success? ==> r.value == fs - {p}
  {
    if p !in fs then Failure(NotFound(p))
    else if fs[p] == Dir && HasChild(fs, p) then Failure(NotEmpty(p))
    else Success(fs - {p})
  }

  /** The recursive glob: every entry below `root`, each once, in an order
      the filesystem chooses. */
  method Glob(fs: Fs, root: Path) returns (listed: seq<Path>)
    ensures forall p :: p in listed <==> p in Descendants(fs, root)
    ensures Distinct(listed)
  {
    var rest := Descendants(fs, root);
    listed := [];
    while rest != {}
      invariant forall p :: p in listed ==> p !in rest
      invariant forall p :: p in Descendants(fs, root) <==> p in listed || p in rest
      invariant Distinct(listed)
      decreases |rest|
    {
      var p :| p in rest;
      listed := listed + [p];
      rest := rest - {p};
    }
  }

  /** The first `i` entries of the deletion order. */
  function Removed(order: seq<Path>, i: nat): set<Path>
  {
    set k | 0 <= k < i && k < |order| :: order[k]
  }

  /** Deleting the entries in descending order, the next entry is present and,
      if a directory, already empty. */
  lemma RemovalStep(fs: Fs, root: Path, order: seq<Path>, i: nat)
    requires Descending(order) && i < |order|
    requires forall p :: p in order <==> p in Descendants(fs, root)
    ensures RemoveEntry(fs - Removed(order, i), order[i]) == Success(fs - Removed(order, i + 1))
  {
    var p := order[i];
    var cur := fs - Removed(order, i);
    assert p in order;
    PathLessIrreflexive(p);
    assert forall k :: 0 <= k < i ==> PathLess(order[i], order[k]);
    assert p in cur;
    forall q | q in cur && |q| > 0
      ensures Parent(q) != p
    {
      if Parent(q) == p {
        assert IsProperPrefix(p, q);
        assert p in Descendants(fs, root);
        assert IsProperPrefix(root, q) by {
          assert q[..|p|] == p;
          assert q[..|root|] == p[..|root|];
        }
        assert q in Descendants(fs, root);
        assert q in order;
        var m :| 0 <= m < |order| && order[m] == q;
        DescendantsComeFirst(order, i, m);
      }
    }
    assert !HasChild(cur, p);
    assert Removed(order, i + 1) == Removed(order, i) + {p};
    assert cur - {p} == fs - Removed(order, i + 1);
  }

  /** `recursive_rmdir(root)`: removes every entry strictly below `root`,
      and nothing else; in particular `root` stays. */
  method RecursiveRmdir(fs: Fs, root: Path) returns (r: Result<Fs, Error>)
    ensures r == Success(fs - Descendants(fs, root))
    ensures r.value.Keys <= fs.Keys
    ensures root in fs ==> root in r.value && r.value[root] == fs[root]
  {
    var listed := Glob(fs, root);
    SortSorted(listed);
    var order := SortDescending(listed);
    assert forall p :: p in order <==> p in Descendants(fs, root) by {
      forall p
        ensures p in order <==> p in listed
      {
        assert p in order <==> p in multiset(order);
        assert p in listed <==> p in multiset(listed);
      }
    }
    var cur := fs;
    var i := 0;
    while i < |order|
      invariant 0 <= i <= |order|
      invariant cur == fs - Removed(order, i)
      decreases |order| - i
    {
      RemovalStep(fs, root, order, i);
      cur := RemoveEntry(cur, order[i]).value;
      i := i + 1;
    }
    assert Removed(order, |order|) == Descendants(fs, root);
    r := Success(cur);
  }
}

=== FILE: commit.dfy ===
/**
 * `letsgo_mydudes`: list the enabled mods of the current profile, and once
 * the user confirms, empty the game's mod folder and deploy the profile
 * into it.
 */
module Commit {
  import opened Wrappers
  import opened Paths
  import opened FileSystem
  import opened Settings
  import opened ModPack
  import opened Overlay
  import opened Cleaner
  import opened Registry
  import opened DeploySuccess

  /** glob never lists a folder itself, so whatever a mod provides lies
      strictly below the destination. */
  lemma ProvidedBelowDest(profile: Profile, setup: Setup, k: int, e: TreeEntry)
    requires forall f :: f in setup.listings ==> ValidTree(setup.listings[f])
    requires Provides(profile, setup, k, e)
    ensures IsProperPrefix(setup.dest, setup.dest + e.rel)
  {
    var tree := TreeOf(setup, profile[k].name);
    var i :| 0 <= i < |tree| && tree[i] == e;
    assert |e.rel| > 0;
    assert (setup.dest + e.rel)[..|setup.dest|] == setup.dest;
  }

  /** Clear-then-deploy: below the destination exactly the paths the enabled
      mods provide are present, whatever was there before; everywhere else
      the filesystem is as it was. */
  lemma ClearThenDeploy(fs: Fs, profile: Profile, setup: Setup, p: Path)
    requires forall f :: f in setup.listings ==> ValidTree(setup.listings[f])
    requires InitializeConfigs(fs - Descendants(fs, setup.dest), profile, setup).Success?
    ensures var fin := InitializeConfigs(fs - Descendants(fs, setup.dest), profile, setup).value;
            && (IsProperPrefix(setup.dest, p) ==>
                 (p in fin <==> exists k, e :: Provides(profile, setup, k, e) && setup.dest + e.rel == p))
            && (!IsProperPrefix(setup.dest, p) ==> (p in fin <==> p in fs) && (p in fs ==> fin[p] == fs[p]))
  {
    var cleared := fs - Descendants(fs, setup.dest);
    if exists k, e :: Provides(profile, setup, k, e) && setup.dest + e.rel == p {
      var k, e :| Provides(profile, setup, k, e) && setup.dest + e.rel == p;
      ProvidedBelowDest(profile, setup, k, e);
      WrittenPaths(cleared, profile, setup, p);
    } else {
      OthersUnchanged(cleared, profile, setup, p);
    }
  }

  /** Clearing the destination makes room for any deploy whose listings
      fit together: with the destination a directory, the deploy after the
      clear goes through. */
  lemma ClearThenDeploySucceeds(fs: Fs, profile: Profile, setup: Setup)
    requires ListingsDeployable(profile, setup)
    requires setup.dest in fs && fs[setup.dest] == Dir
    ensures InitializeConfigs(fs - Descendants(fs, setup.dest), profile, setup).Success?
  {
    DeploySucceeds(fs - Descendants(fs, setup.dest), profile, setup);
  }

  /** The commit button. `confirmed` is the user's answer to the question
      that lists `names`; `cwd` is the folder a relative game mod folder is
      resolved against. */
  method LetsGo(gs: GameSetting, current: string, confirmed: bool, fs: Fs, inputFolder: Path, cwd: Path,
                listings: map<Path, Tree>)
    returns (names: seq<string>, r: Result<Fs, Error>)
    requires forall f :: f in listings ==> ValidTree(listings[f])
    ensures current !in gs.profiles ==> r == Failure(MissingProfile(current))
    ensures current in gs.profiles ==> names == EnabledNames(gs.profiles[current])
    ensures current in gs.profiles && !confirmed ==> r == Success(fs)
    ensures current in gs.profiles && confirmed && !AllRegistered(gs.profiles[current], gs.mods) ==> r.Failure?
    ensures current in gs.profiles && confirmed ==>
              var dest := ResolveAgainst(cwd, gs.gameModFolder);
              r == InitializeConfigs(fs - Descendants(fs, dest), gs.profiles[current], Setup(gs.mods, inputFolder, dest, listings))
    ensures current in gs.profiles && confirmed ==>
              var dest := ResolveAgainst(cwd, gs.gameModFolder);
              (ListingsDeployable(gs.profiles[current], Setup(gs.mods, inputFolder, dest, listings))
               && dest in fs && fs[dest] == Dir) ==> r.Success?
    ensures current in gs.profiles && confirmed && r.Success? ==>
              var dest := ResolveAgainst(cwd, gs.gameModFolder);
              var setup := Setup(gs.mods, inputFolder, dest, listings);
              forall p ::
                && (IsProperPrefix(dest, p) ==>
                     (p in r.value <==> exists k, e :: Provides(gs.profiles[current], setup, k, e) && dest + e.rel == p))
                && (!IsProperPrefix(dest, p) ==> (p in r.value <==> p in fs) && (p in fs ==> r.value[p] == fs[p]))
  {
    if current !in gs.profiles {
      names := [];
      r := Failure(MissingProfile(current));
      return;
    }
    var profile := gs.profiles[current];
    names := EnabledNames(profile);
    if !confirmed {
      r := Success(fs);
      return;
    }
    var dest := ResolveAgainst(cwd, gs.gameModFolder);
    var cleared := RecursiveRmdir(fs, dest);
    var setup := Setup(gs.mods, inputFolder, dest, listings);
    r := InitializeConfigs(cleared.value, profile, setup);
    if ListingsDeployable(profile, setup) && dest in fs && fs[dest] == Dir {
      ClearThenDeploySucceeds(fs, profile, setup);
    }
    if r.Success? {
      forall p
        ensures && (IsProperPrefix(dest, p) ==>
                     (p in r.value <==> exists k, e :: Provides(profile, setup, k, e) && dest + e.rel == p))
                && (!IsProperPrefix(dest, p) ==> (p in r.value <==> p in fs) && (p in fs ==> r.value[p] == fs[p]))
      {
        ClearThenDeploy(fs, profile, setup, p);
      }
    }
  }
}

=== FILE: deploysuccess.dfy ===
/**
 * When a deploy goes through. A walk succeeds when every operation finds
 * its parent directory, no path is wanted both as a directory and as a
 * file, and no operation meets an existing entry of the other kind. A
 * profile deploy meets these conditions when its mods are registered,
 * their listings come from a top-down recursive glob, they agree on which
 * paths are directories, and the destination is an empty directory.
 */
module DeploySuccess {
  import opened Wrappers
  import opened Paths
  import opened FileSystem
  import opened Settings
  import opened ModPack
  import opened Overlay

  /** Every operation's parent is a directory already, or an earlier
      operation makes it. */
  predicate ParentsMade(fs: Fs, ops: seq<Op>)
  {
    forall k :: 0 <= k < |ops| ==>
      |ops[k].at| > 0 && (ParentIsDir(fs, ops[k].at) || MakeDir(Parent(ops[k].at)) in ops[..k])
  }

  /** No operation meets an existing entry of the other kind. */
  predicate KindsMatch(fs: Fs, ops: seq<Op>)
  {
    forall k :: 0 <= k < |ops| && ops[k].at in fs ==> (fs[ops[k].at] == Dir <==> ops[k].MakeDir?)
  }

  /** No path is made a directory by one operation and linked by another. */
  predicate NoKindClash(ops: seq<Op>)
  {
    forall j, k :: 0 <= j < |ops| && 0 <= k < |ops| && ops[j].at == ops[k].at ==> ops[j].MakeDir? == ops[k].MakeDir?
  }

  predicate Deployable(fs: Fs, ops: seq<Op>)
  {
    ParentsMade(fs, ops) && KindsMatch(fs, ops) && NoKindClash(ops)
  }

  /** After the first operation the rest of the walk is still deployable. */
  lemma DeployableStep(fs: Fs, ops: seq<Op>)
    requires Deployable(fs, ops) && |ops| > 0
    ensures Deployable(fs[ops[0].at := Effect(ops[0])], ops[1..])
  {
    var fs1 := fs[ops[0].at := Effect(ops[0])];
    var rest := ops[1..];
    forall k | 0 <= k < |rest|
      ensures |rest[k].at| > 0 && (ParentIsDir(fs1, rest[k].at) || MakeDir(Parent(rest[k].at)) in rest[..k])
    {
      assert rest[k] == ops[k + 1];
      var q := Parent(rest[k].at);
      if MakeDir(q) in ops[..k + 1] {
        var i :| 0 <= i < k + 1 && ops[..k + 1][i] == MakeDir(q);
        if i == 0 {
          assert fs1[q] == Dir;
        } else {
          assert rest[..k][i - 1] == MakeDir(q);
        }
      } else if ops[0].at == q {
        assert ops[0].MakeDir?;
      }
    }
    forall k | 0 <= k < |rest| && rest[k].at in fs1
      ensures fs1[rest[k].at] == Dir <==> rest[k].MakeDir?
    {
      assert rest[k] == ops[k + 1];
    }
    forall j, k | 0 <= j < |rest| && 0 <= k < |rest| && rest[j].at == rest[k].at
      ensures rest[j].MakeDir? == rest[k].MakeDir?
    {
      assert rest[j] == ops[j + 1] && rest[k] == ops[k + 1];
    }
  }

  /** A deployable walk never raises. */
  lemma {:induction false} RunSucceeds(fs: Fs, ops: seq<Op>)
    requires Deployable(fs, ops)
    ensures Run(fs, ops).Success?
    decreases |ops|
  {
    if |ops| > 0 {
      assert ops[..0] == [];
      assert Step(fs, ops[0]) == Success(fs[ops[0].at := Effect(ops[0])]);
      DeployableStep(fs, ops);
      RunSucceeds(fs[ops[0].at := Effect(ops[0])], ops[1..]);
    }
  }

  lemma ParentsMadeAppend(fs: Fs, a: seq<Op>, b: seq<Op>)
    requires ParentsMade(fs, a) && ParentsMade(fs, b)
    ensures ParentsMade(fs, a + b)
  {
    forall k | 0 <= k < |a + b|
      ensures |(a + b)[k].at| > 0
              && (ParentIsDir(fs, (a + b)[k].at) || MakeDir(Parent((a + b)[k].at)) in (a + b)[..k])
    {
      if k < |a| {
        ParentMadeInFront(fs, a, b, k);
      } else {
        ParentMadeBehind(fs, a, b, k - |a|);
      }
    }
  }

  /** An operation of the first part keeps its earlier operations. */
  lemma ParentMadeInFront(fs: Fs, a: seq<Op>, b: seq<Op>, k: nat)
    requires ParentsMade(fs, a) && k < |a|
    ensures |(a + b)[k].at| > 0
            && (ParentIsDir(fs, (a + b)[k].at) || MakeDir(Parent((a + b)[k].at)) in (a + b)[..k])
  {
    assert (a + b)[k] == a[k];
    assert (a + b)[..k] == a[..k];
  }

  /** An operation of the second part finds its earlier operations shifted
      by the length of the first. */
  lemma ParentMadeBehind(fs: Fs, a: seq<Op>, b: seq<Op>, m: nat)
    requires ParentsMade(fs, b) && m < |b|
    ensures |(a + b)[|a| + m].at| > 0
            && (ParentIsDir(fs, (a + b)[|a| + m].at) || MakeDir(Parent((a + b)[|a| + m].at)) in (a + b)[..|a| + m])
  {
    assert (a + b)[|a| + m] == b[m];
    assert (a + b)[..|a| + m] == a + b[..m];
  }

  lemma ParentOfBelow(dest: Path, rel: Path)
    requires |rel| > 0
    ensures Parent(dest + rel) == dest + Parent(rel)
  {
    assert (dest + rel)[..|dest| + |rel| - 1] == dest + rel[..|rel| - 1];
  }

  /** A top-down listing placed below an existing directory finds every
      parent. */
  lemma ModOpsParentsMade(fs: Fs, folder: Path, dest: Path, tree: Tree)
    requires dest in fs && fs[dest] == Dir
    requires ValidTree(tree) && ParentFirst(tree)
    ensures ParentsMade(fs, ModOps(folder, dest, tree))
  {
    var ops := ModOps(folder, dest, tree);
    forall k | 0 <= k < |ops|
      ensures |ops[k].at| > 0 && (ParentIsDir(fs, ops[k].at) || MakeDir(Parent(ops[k].at)) in ops[..k])
    {
      var rel := tree[k].rel;
      assert ops[k].at == dest + rel;
      ParentOfBelow(dest, rel);
      if |rel| == 1 {
        assert Parent(rel) == [];
        assert dest + [] == dest;
      } else {
        var i :| 0 <= i < k && tree[..k][i] == TreeEntry(Parent(rel), true);
        assert ops[..k][i] == ops[i] == MakeDir(dest + Parent(rel));
      }
    }
  }

  /** What a profile needs for its deploy to go through, besides an empty
      destination directory: every enabled entry is registered, and the
      listings of the enabled mods are top-down glob listings that never
      take one path for a directory in one mod and a file in another. */
  ghost predicate ListingsDeployable(profile: Profile, setup: Setup)
  {
    && AllRegistered(profile, setup.mods)
    && (forall k :: 0 <= k < |profile| && profile[k].enabled ==>
          ValidTree(TreeOf(setup, profile[k].name)) && ParentFirst(TreeOf(setup, profile[k].name)))
    && (forall k, e, k', e' :: Provides(profile, setup, k, e) && Provides(profile, setup, k', e') && e.rel == e'.rel
          ==> e.isDir == e'.isDir)
  }

  lemma {:induction false} DeployOpsParentsMade(fs: Fs, profile: Profile, setup: Setup)
    requires setup.dest in fs && fs[setup.dest] == Dir
    requires forall k :: 0 <= k < |profile| && profile[k].enabled ==>
               ValidTree(TreeOf(setup, profile[k].name)) && ParentFirst(TreeOf(setup, profile[k].name))
    ensures ParentsMade(fs, DeployOps(profile, setup))
    decreases |profile|
  {
    if |profile| > 0 {
      var e := profile[0];
      if e.enabled && e.name in setup.mods {
        ModOpsParentsMade(fs, FolderOf(setup, e.name), setup.dest, TreeOf(setup, e.name));
      }
      assert forall k :: 1 <= k < |profile| ==> profile[k] == profile[1..][k - 1];
      DeployOpsParentsMade(fs, profile[1..], setup);
      ParentsMadeAppend(fs, EntryOps(e, setup), DeployOps(profile[1..], setup));
    }
  }

  /** `op` is the operation of entry `e`, listed by an enabled, registered mod. */
  ghost predicate Origin(profile: Profile, setup: Setup, op: Op, e: TreeEntry)
  {
    op.at == setup.dest + e.rel && |e.rel| > 0 && op.MakeDir? == e.isDir
    && exists j :: Provides(profile, setup, j, e)
  }

  /** Every operation of the deploy comes from a listed entry strictly
      below the destination, of the same kind. */
  lemma OpOrigin(profile: Profile, setup: Setup, k: nat) returns (e: TreeEntry)
    requires ListingsDeployable(profile, setup)
    requires k < |DeployOps(profile, setup)|
    ensures Origin(profile, setup, DeployOps(profile, setup)[k], e)
  {
    var ops := DeployOps(profile, setup);
    DeployOpsOrigin(profile, setup, k);
    var j, e0 :| Provides(profile, setup, j, e0)
                 && ops[k] == OpFor(FolderOf(setup, profile[j].name), setup.dest, e0);
    var tree := TreeOf(setup, profile[j].name);
    var i :| 0 <= i < |tree| && tree[i] == e0;
    assert Origin(profile, setup, ops[k], e0);
    e := e0;
  }

  /** Under `ListingsDeployable`, deploying onto a target whose destination
      is a directory with nothing below it succeeds. */
  lemma DeploySucceeds(fs: Fs, profile: Profile, setup: Setup)
    requires ListingsDeployable(profile, setup)
    requires setup.dest in fs && fs[setup.dest] == Dir
    requires forall p :: p in fs ==> !IsProperPrefix(setup.dest, p)
    ensures InitializeConfigs(fs, profile, setup).Success?
  {
    var ops := DeployOps(profile, setup);
    DeployOpsParentsMade(fs, profile, setup);
    forall k | 0 <= k < |ops|
      ensures ops[k].at !in fs
    {
      var e := OpOrigin(profile, setup, k);
      assert (setup.dest + e.rel)[..|setup.dest|] == setup.dest;
      assert IsProperPrefix(setup.dest, ops[k].at);
    }
    forall j, k | 0 <= j < |ops| && 0 <= k < |ops| && ops[j].at == ops[k].at
      ensures ops[j].MakeDir? == ops[k].MakeDir?
    {
      var e := OpOrigin(profile, setup, j);
      var e' := OpOrigin(profile, setup, k);
      AppendCancel(setup.dest, e.rel, e'.rel);
    }
    RunSucceeds(fs, ops);
    InitializeConfigsRuns(fs, profile, setup);
  }
}

=== FILE: filesystem.dfy ===
/**
 * The target side of the filesystem, as the deploy engine sees it: a
 * finite map from resolved path to what is there. A regular file is a
 * hard link and is recorded with the file it shares its contents with.
 */
module FileSystem {
  import opened Paths

  datatype Node = Dir | Link(source: Path)

  type Fs = map<Path, Node>

  /** Why a call of the core raises, with the path or name involved. */
  datatype Error =
    | NotFound(path: Path)          // the parent is missing (FileNotFoundError) or a file (NotADirectoryError)
    | AlreadyExists(path: Path)     // FileExistsError: mkdir over a file
    | IsADirectory(path: Path)      // unlink on a directory
    | NotEmpty(path: Path)          // rmdir on a directory that still has entries
    | MissingMod(name: string)      // TypeError from `input_folder / None`: an enabled entry names no registered mod
    | MissingProfile(name: string)  // the current profile is not in the document, so the code iterates or copies `None`

  /** The parent of `p` exists and is a directory, so `p` can be created. */
  predicate ParentIsDir(fs: Fs, p: Path)
  {
    |p| > 0 && Parent(p) in fs && fs[Parent(p)] == Dir
  }

  /** Every entry other than the root hangs below a directory. */
  predicate WellFormed(fs: Fs)
  {
    forall p :: p in fs && |p| > 0 ==> Parent(p) in fs && fs[Parent(p)] == Dir
  }

  /** Some entry sits directly inside `p`. */
  predicate HasChild(fs: Fs, p: Path)
  {
    exists q :: q in fs && |q| > 0 && Parent(q) == p
  }
}

=== FILE: fomod.dfy ===
/**
 * The FOMOD installer records of `fomod.py` and the result of a run of the
 * installer wizard: for every enabled plugin, each of its folders is
 * recorded under the key "<install-step index><group name>", a later folder
 * overwriting an earlier one with the same key. The records are given as
 * already parsed from ModuleConfig.xml; an XML attribute or text that is
 * absent is `None`.
 */
module Fomod {
  import opened Wrappers

  /** An XML attribute or element text: `None` when absent. */
  type Attr = Option<string>

  datatype Folder = Folder(source: Attr, destination: Attr, priority: Attr)

  datatype Files = Files(folders: seq<Folder>)

  datatype Plugin = Plugin(
    name: Attr,
    description: Attr,
    flags: seq<Attr>,
    enabled: bool,
    image: Attr,
    filesCollection: seq<Files>)

  datatype Plugins = Plugins(name: Attr, description: Attr, plugins: seq<Plugin>)

  datatype Group = Group(name: Attr, kind: Attr, pluginCollection: seq<Plugins>)

  datatype OptionalFileGroups = OptionalFileGroups(order: Attr, groups: seq<Group>)

  datatype InstallStep = InstallStep(name: Attr, optionalFileGroups: seq<OptionalFileGroups>)

  datatype InstallSteps = InstallSteps(order: Attr, installSteps: seq<InstallStep>)

  datatype FomodParser = FomodParser(moduleName: Attr, installSteps: seq<InstallSteps>)

  /** The dictionary `Folder.to_dict` returns. */
  type Record = map<string, Attr>

  /* ---------------- Plugin and Folder ---------------- */

  /** A plugin as its constructor builds it: not enabled. */
  function NewPlugin(name: Attr, description: Attr, flags: seq<Attr>, image: Attr, filesCollection: seq<Files>)
    : (r: Plugin)
    ensures !r.enabled
    ensures r.name == name && r.filesCollection == filesCollection
  {
    Plugin(name, description, flags, false, image, filesCollection)
  }

  /** `Plugin.update`: the radio button's state becomes the plugin's
      `enabled`; nothing else changes. */
  function Update(p: Plugin, arg: bool): (r: Plugin)
    ensures r.enabled == arg
    ensures r.(enabled := p.enabled) == p
  {
    p.(enabled := arg)
  }

  /** Only the last toggle counts. */
  lemma UpdateLastWins(p: Plugin, a: bool, b: bool)
    ensures Update(Update(p, a), b) == Update(p, b)
  {
  }

  /** `Folder.to_dict`: the three attributes under their names, unchanged. */
  function ToDict(f: Folder): (r: Record)
    ensures r.Keys == {"source", "destination", "priority"}
    ensures r["source"] == f.source && r["destination"] == f.destination && r["priority"] == f.priority
  {
    map["source" := f.source, "destination" := f.destination, "priority" := f.priority]
  }

  /** Nothing is lost in the record: different folders give different records. */
  lemma ToDictInjective(a: Folder, b: Folder)
    requires ToDict(a) == ToDict(b)
    ensures a == b
  {
    assert ToDict(a)["source"] == ToDict(b)["source"];
    assert ToDict(a)["destination"] == ToDict(b)["destination"];
    assert ToDict(a)["priority"] == ToDict(b)["priority"];
  }

  /* ---------------- the result keys ---------------- */

  function Digit(d: nat): char
    requires d < 10
  {
    "0123456789"[d]
  }

  function DigitValue(c: char): nat
  {
    if '0' <= c <= '9' then (c - '0') as nat else 0
  }

  /** `str(n)` for a natural number. */
  function DecimalString(n: nat): (r: string)
    ensures |r| > 0 && forall k :: 0 <= k < |r| ==> '0' <= r[k] <= '9'
    decreases n
  {
    if n < 10 then [Digit(n)] else DecimalString(n / 10) + [Digit(n % 10)]
  }

  /** Reads a string of decimal digits back. */
  function ParseDecimal(s: string): nat
    decreases |s|
  {
    if |s| == 0 then 0 else ParseDecimal(s[..|s| - 1]) * 10 + DigitValue(s[|s| - 1])
  }

  /** The index is written in decimal: reading it back gives the index. */
  lemma {:induction false} DecimalRoundTrip(n: nat)
    ensures ParseDecimal(DecimalString(n)) == n
    decreases n
  {
    var s := DecimalString(n);
    if n >= 10 {
      DecimalRoundTrip(n / 10);
      assert s[..|s| - 1] == DecimalString(n / 10);
    }
  }

  /** `f"{group.name}"`: an absent name prints as "None". */
  function NameText(name: Attr): string
  {
    match name
    case None => "None"
    case Some(s) => s
  }

  /** `f"{str(i)}{group.name}"`. */
  function Key(i: nat, groupName: Attr): string
  {
    DecimalString(i) + NameText(groupName)
  }

  /** The key does not separate index and name: step 1 with group "2x" and
      step 12 with group "x" share the key "12x". */
  lemma KeyCollision()
    ensures Key(1, Some("2x")) == Key(12, Some("x")) == "12x"
  {
    assert DecimalString(12) == DecimalString(1) + [Digit(2)];
  }

  /* ---------------- handle_results, loop by loop ---------------- */

  type Results = map<string, Record>

  function FoldFolders(m: Results, key: string, folders: seq<Folder>): Results
    decreases |folders|
  {
    if |folders| == 0 then m else FoldFolders(m[key := ToDict(folders[0])], key, folders[1..])
  }

  function FoldFiles(m: Results, key: string, files: seq<Files>): Results
    decreases |files|
  {
    if |files| == 0 then m else FoldFiles(FoldFolders(m, key, files[0].folders), key, files[1..])
  }

  function FoldPlugins(m: Results, key: string, plugins: seq<Plugin>): Results
    decreases |plugins|
  {
    if |plugins| == 0 then m
    else if plugins[0].enabled then FoldPlugins(FoldFiles(m, key, plugins[0].filesCollection), key, plugins[1..])
    else FoldPlugins(m, key, plugins[1..])
  }

  function FoldPluginsCollections(m: Results, key: string, pcs: seq<Plugins>): Results
    decreases |pcs|
  {
    if |pcs| == 0 then m else FoldPluginsCollections(FoldPlugins(m, key, pcs[0].plugins), key, pcs[1..])
  }

  function FoldGroups(m: Results, i: nat, groups: seq<Group>): Results
    decreases |groups|
  {
    if |groups| == 0 then m
    else FoldGroups(FoldPluginsCollections(m, Key(i, groups[0].name), groups[0].pluginCollection), i, groups[1..])
  }

  function FoldOptionalFileGroups(m: Results, i: nat, ofgs: seq<OptionalFileGroups>): Results
    decreases |ofgs|
  {
    if |ofgs| == 0 then m else FoldOptionalFileGroups(FoldGroups(m, i, ofgs[0].groups), i, ofgs[1..])
  }

  /** The steps of one collection, `i` being the `enumerate` index of the first. */
  function FoldSteps(m: Results, i: nat, steps: seq<InstallStep>): Results
    decreases |steps|
  {
    if |steps| == 0 then m
    else FoldSteps(FoldOptionalFileGroups(m, i, steps[0].optionalFileGroups), i + 1, steps[1..])
  }

  function FoldCollections(m: Results, cs: seq<InstallSteps>): Results
    decreases |cs|
  {
    if |cs| == 0 then m else FoldCollections(FoldSteps(m, 0, cs[0].installSteps), cs[1..])
  }

  /** `FomodParser.handle_results`: the nested loops perform, in order, one
      assignment per folder of every enabled plugin, which is applying the
      flattened writes of the tree to an empty dictionary. */
  function HandleResults(parser: FomodParser): (r: Results)
    ensures r == Apply(map[], Writes(Sites(parser)))
  {
    FoldCollectionsWrites(map[], parser.installSteps);
    FoldCollections(map[], parser.installSteps)
  }

  /* ---------------- the same traversal, flattened ---------------- */

  /** One folder of one plugin, with the step index and group name it sits
      under. */
  datatype Site = Site(index: nat, groupName: Attr, plugin: Plugin, folder: Folder)

  predicate AllUnder(s: seq<Site>, i: nat, g: Attr, p: Plugin)
  {
    forall k :: 0 <= k < |s| ==> s[k].index == i && s[k].groupName == g && s[k].plugin == p
  }

  function FolderSites(i: nat, g: Attr, p: Plugin, folders: seq<Folder>): (r: seq<Site>)
    ensures AllUnder(r, i, g, p)
    decreases |folders|
  {
    if |folders| == 0 then [] else [Site(i, g, p, folders[0])] + FolderSites(i, g, p, folders[1..])
  }

  function FilesSites(i: nat, g: Attr, p: Plugin, files: seq<Files>): (r: seq<Site>)
    ensures AllUnder(r, i, g, p)
    decreases |files|
  {
    if |files| == 0 then [] else FolderSites(i, g, p, files[0].folders) + FilesSites(i, g, p, files[1..])
  }

  function PluginSites(i: nat, g: Attr, plugins: seq<Plugin>): seq<Site>
    decreases |plugins|
  {
    if |plugins| == 0 then []
    else FilesSites(i, g, plugins[0], plugins[0].filesCollection) + PluginSites(i, g, plugins[1..])
  }

  function PluginsCollectionSites(i: nat, g: Attr, pcs: seq<Plugins>): seq<Site>
    decreases |pcs|
  {
    if |pcs| == 0 then [] else PluginSites(i, g, pcs[0].plugins) + PluginsCollectionSites(i, g, pcs[1..])
  }

  function GroupSites(i: nat, groups: seq<Group>): seq<Site>
    decreases |groups|
  {
    if |groups| == 0 then []
    else PluginsCollectionSites(i, groups[0].name, groups[0].pluginCollection) + GroupSites(i, groups[1..])
  }

  function OptionalFileGroupsSites(i: nat, ofgs: seq<OptionalFileGroups>): seq<Site>
    decreases |ofgs|
  {
    if |ofgs| == 0 then [] else GroupSites(i, ofgs[0].groups) + OptionalFileGroupsSites(i, ofgs[1..])
  }

  function StepSites(i: nat, steps: seq<InstallStep>): seq<Site>
    decreases |steps|
  {
    if |steps| == 0 then []
    else OptionalFileGroupsSites(i, steps[0].optionalFileGroups) + StepSites(i + 1, steps[1..])
  }

  function CollectionSites(cs: seq<InstallSteps>): seq<Site>
    decreases |cs|
  {
    if |cs| == 0 then [] else StepSites(0, cs[0].installSteps) + CollectionSites(cs[1..])
  }

  /** Every folder of every plugin of the tree, in the order the loops of
      `handle_results` visit them. */
  function Sites(parser: FomodParser): seq<Site>
  {
    CollectionSites(parser.installSteps)
  }

  /** The dictionary assignments the enabled sites make, in order. */
  function Writes(s: seq<Site>): seq<(string, Record)>
    decreases |s|
  {
    if |s| == 0 then []
    else (if s[0].plugin.enabled then [(Key(s[0].index, s[0].groupName), ToDict(s[0].folder))] else [])
         + Writes(s[1..])
  }

  /** Performs dictionary assignments in order. */
  function Apply(m: Results, ws: seq<(string, Record)>): Results
    decreases |ws|
  {
    if |ws| == 0 then m else Apply(m[ws[0].0 := ws[0].1], ws[1..])
  }

  lemma {:induction false} WritesAppend(a: seq<Site>, b: seq<Site>)
    ensures Writes(a + b) == Writes(a) + Writes(b)
    decreases |a|
  {
    if |a| == 0 {
      assert a + b == b;
    } else {
      var head := if a[0].plugin.enabled then [(Key(a[0].index, a[0].groupName), ToDict(a[0].folder))] else [];
      assert (a + b)[0] == a[0];
      assert (a + b)[1..] == a[1..] + b;
      assert Writes(a + b) == head + Writes(a[1..] + b);
      WritesAppend(a[1..], b);
      assert head + (Writes(a[1..]) + Writes(b)) == (head + Writes(a[1..])) + Writes(b);
    }
  }

  lemma {:induction false} ApplyAppend(m: Results, a: seq<(string, Record)>, b: seq<(string, Record)>)
    ensures Apply(m, a + b) == Apply(Apply(m, a), b)
    decreases |a|
  {
    if |a| == 0 {
      assert a + b == b;
    } else {
      assert (a + b)[0] == a[0];
      assert (a + b)[1..] == a[1..] + b;
      ApplyAppend(m[a[0].0 := a[0].1], a[1..], b);
    }
  }

  /** A disabled plugin writes nothing. */
  lemma {:induction false} WritesDisabled(s: seq<Site>, i: nat, g: Attr, p: Plugin)
    requires AllUnder(s, i, g, p) && !p.enabled
    ensures Writes(s) == []
    decreases |s|
  {
    if |s| > 0 {
      WritesDisabled(s[1..], i, g, p);
    }
  }

  /* ---------------- the loops perform the flattened writes ---------------- */

  lemma {:induction false} FoldFoldersWrites(m: Results, i: nat, g: Attr, p: Plugin, folders: seq<Folder>)
    requires p.enabled
    ensures FoldFolders(m, Key(i, g), folders) == Apply(m, Writes(FolderSites(i, g, p, folders)))
    decreases |folders|
  {
    if |folders| > 0 {
      FoldFoldersWrites(m[Key(i, g) := ToDict(folders[0])], i, g, p, folders[1..]);
    }
  }

  lemma {:induction false} FoldFilesWrites(m: Results, i: nat, g: Attr, p: Plugin, files: seq<Files>)
    requires p.enabled
    ensures FoldFiles(m, Key(i, g), files) == Apply(m, Writes(FilesSites(i, g, p, files)))
    decreases |files|
  {
    if |files| > 0 {
      var head := FolderSites(i, g, p, files[0].folders);
      FoldFoldersWrites(m, i, g, p, files[0].folders);
      FoldFilesWrites(FoldFolders(m, Key(i, g), files[0].folders), i, g, p, files[1..]);
      WritesAppend(head, FilesSites(i, g, p, files[1..]));
      ApplyAppend(m, Writes(head), Writes(FilesSites(i, g, p, files[1..])));
    }
  }

  lemma {:induction false} FoldPluginsWrites(m: Results, i: nat, g: Attr, plugins: seq<Plugin>)
    ensures FoldPlugins(m, Key(i, g), plugins) == Apply(m, Writes(PluginSites(i, g, plugins)))
    decreases |plugins|
  {
    if |plugins| > 0 {
      var p := plugins[0];
      var head := FilesSites(i, g, p, p.filesCollection);
      var rest := PluginSites(i, g, plugins[1..]);
      WritesAppend(head, rest);
      ApplyAppend(m, Writes(head), Writes(rest));
      if p.enabled {
        FoldFilesWrites(m, i, g, p, p.filesCollection);
        FoldPluginsWrites(FoldFiles(m, Key(i, g), p.filesCollection), i, g, plugins[1..]);
      } else {
        WritesDisabled(head, i, g, p);
        FoldPluginsWrites(m, i, g, plugins[1..]);
      }
    }
  }

  lemma {:induction false} FoldPluginsCollectionsWrites(m: Results, i: nat, g: Attr, pcs: seq<Plugins>)
    ensures FoldPluginsCollections(m, Key(i, g), pcs) == Apply(m, Writes(PluginsCollectionSites(i, g, pcs)))
    decreases |pcs|
  {
    if |pcs| > 0 {
      var head := PluginSites(i, g, pcs[0].plugins);
      var rest := PluginsCollectionSites(i, g, pcs[1..]);
      FoldPluginsWrites(m, i, g, pcs[0].plugins);
      FoldPluginsCollectionsWrites(FoldPlugins(m, Key(i, g), pcs[0].plugins), i, g, pcs[1..]);
      WritesAppend(head, rest);
      ApplyAppend(m, Writes(head), Writes(rest));
    }
  }

  lemma {:induction false} FoldGroupsWrites(m: Results, i: nat, groups: seq<Group>)
    ensures FoldGroups(m, i, groups) == Apply(m, Writes(GroupSites(i, groups)))
    decreases |groups|
  {
    if |groups| > 0 {
      var gr := groups[0];
      var head := PluginsCollectionSites(i, gr.name, gr.pluginCollection);
      var rest := GroupSites(i, groups[1..]);
      FoldPluginsCollectionsWrites(m, i, gr.name, gr.pluginCollection);
      FoldGroupsWrites(FoldPluginsCollections(m, Key(i, gr.name), gr.pluginCollection), i, groups[1..]);
      WritesAppend(head, rest);
      ApplyAppend(m, Writes(head), Writes(rest));
    }
  }

  lemma {:induction false} FoldOptionalFileGroupsWrites(m: Results, i: nat, ofgs: seq<OptionalFileGroups>)
    ensures FoldOptionalFileGroups(m, i, ofgs) == Apply(m, Writes(OptionalFileGroupsSites(i, ofgs)))
    decreases |ofgs|
  {
    if |ofgs| > 0 {
      var head := GroupSites(i, ofgs[0].groups);
      var rest := OptionalFileGroupsSites(i, ofgs[1..]);
      FoldGroupsWrites(m, i, ofgs[0].groups);
      FoldOptionalFileGroupsWrites(FoldGroups(m, i, ofgs[0].groups), i, ofgs[1..]);
      WritesAppend(head, rest);
      ApplyAppend(m, Writes(head), Writes(rest));
    }
  }

  lemma {:induction false} FoldStepsWrites(m: Results, i: nat, steps: seq<InstallStep>)
    ensures FoldSteps(m, i, steps) == Apply(m, Writes(StepSites(i, steps)))
    decreases |steps|
  {
    if |steps| > 0 {
      var head := OptionalFileGroupsSites(i, steps[0].optionalFileGroups);
      var rest := StepSites(i + 1, steps[1..]);
      FoldOptionalFileGroupsWrites(m, i, steps[0].optionalFileGroups);
      FoldStepsWrites(FoldOptionalFileGroups(m, i, steps[0].optionalFileGroups), i + 1, steps[1..]);
      WritesAppend(head, rest);
      ApplyAppend(m, Writes(head), Writes(rest));
    }
  }

  lemma {:induction false} FoldCollectionsWrites(m: Results, cs: seq<InstallSteps>)
    ensures FoldCollections(m, cs) == Apply(m, Writes(CollectionSites(cs)))
    decreases |cs|
  {
    if |cs| > 0 {
      var head := StepSites(0, cs[0].installSteps);
      var rest := CollectionSites(cs[1..]);
      FoldStepsWrites(m, 0, cs[0].installSteps);
      FoldCollectionsWrites(FoldSteps(m, 0, cs[0].installSteps), cs[1..]);
      WritesAppend(head, rest);
      ApplyAppend(m, Writes(head), Writes(rest));
    }
  }


  /* ---------------- what the assignments leave ---------------- */

  /** The assignments an enabled site makes, and no others. */
  lemma {:induction false} WritesMembers(s: seq<Site>, w: (string, Record))
    ensures w in Writes(s) <==>
            exists k :: 0 <= k < |s| && s[k].plugin.enabled
                        && w == (Key(s[k].index, s[k].groupName), ToDict(s[k].folder))
    decreases |s|
  {
    if |s| > 0 {
      WritesMembers(s[1..], w);
      if exists k :: 0 <= k < |s| - 1 && s[1..][k].plugin.enabled
                     && w == (Key(s[1..][k].index, s[1..][k].groupName), ToDict(s[1..][k].folder)) {
        var k :| 0 <= k < |s| - 1 && s[1..][k].plugin.enabled
                 && w == (Key(s[1..][k].index, s[1..][k].groupName), ToDict(s[1..][k].folder));
        assert s[k + 1] == s[1..][k];
      }
      if exists k :: 0 <= k < |s| && s[k].plugin.enabled
                     && w == (Key(s[k].index, s[k].groupName), ToDict(s[k].folder)) {
        var k :| 0 <= k < |s| && s[k].plugin.enabled
                 && w == (Key(s[k].index, s[k].groupName), ToDict(s[k].folder));
        if k > 0 {
          assert s[1..][k - 1] == s[k];
        }
      }
    }
  }

  /** A key is present exactly when it was present before or some assignment
      wrote it; the value is the one the last such assignment wrote. */
  lemma {:induction false} ApplyKeys(m: Results, ws: seq<(string, Record)>, key: string)
    ensures key in Apply(m, ws) <==> key in m || exists j :: 0 <= j < |ws| && ws[j].0 == key
    decreases |ws|
  {
    if |ws| > 0 {
      ApplyKeys(m[ws[0].0 := ws[0].1], ws[1..], key);
      if exists j :: 0 <= j < |ws| && ws[j].0 == key {
        var j :| 0 <= j < |ws| && ws[j].0 == key;
        if j > 0 {
          assert ws[1..][j - 1] == ws[j];
        }
      }
      if exists j :: 0 <= j < |ws| - 1 && ws[1..][j].0 == key {
        var j :| 0 <= j < |ws| - 1 && ws[1..][j].0 == key;
        assert ws[j + 1] == ws[1..][j];
      }
    }
  }

  lemma {:induction false} ApplyLast(m: Results, ws: seq<(string, Record)>, j: nat)
    requires j < |ws|
    requires forall l :: j < l < |ws| ==> ws[l].0 != ws[j].0
    ensures ws[j].0 in Apply(m, ws) && Apply(m, ws)[ws[j].0] == ws[j].1
    decreases |ws|
  {
    if j == 0 {
      ApplyUntouched(m[ws[0].0 := ws[0].1], ws[1..], ws[0].0);
    } else {
      forall l | j - 1 < l < |ws| - 1
        ensures ws[1..][l].0 != ws[1..][j - 1].0
      {
        assert ws[1..][l] == ws[l + 1];
      }
      ApplyLast(m[ws[0].0 := ws[0].1], ws[1..], j - 1);
    }
  }

  lemma {:induction false} ApplyUntouched(m: Results, ws: seq<(string, Record)>, key: string)
    requires forall l :: 0 <= l < |ws| ==> ws[l].0 != key
    ensures key in Apply(m, ws) <==> key in m
    ensures key in m ==> Apply(m, ws)[key] == m[key]
    decreases |ws|
  {
    if |ws| > 0 {
      ApplyUntouched(m[ws[0].0 := ws[0].1], ws[1..], key);
    }
  }

  /** Every value present was written by some assignment to its key. */
  lemma {:induction false} ApplyValues(m: Results, ws: seq<(string, Record)>, key: string)
    requires key in Apply(m, ws) && key !in m
    ensures exists j :: 0 <= j < |ws| && ws[j].0 == key && Apply(m, ws)[key] == ws[j].1
    decreases |ws|
  {
    var m1 := m[ws[0].0 := ws[0].1];
    if key == ws[0].0 && forall l :: 0 <= l < |ws| - 1 ==> ws[1..][l].0 != key {
      ApplyUntouched(m1, ws[1..], key);
    } else if key == ws[0].0 {
      var l :| 0 <= l < |ws| - 1 && ws[1..][l].0 == key;
      var last := LastWith(ws[1..], key, l);
      ApplyLast(m1, ws[1..], last);
      assert ws[last + 1] == ws[1..][last];
    } else {
      ApplyValues(m1, ws[1..], key);
      var j :| 0 <= j < |ws| - 1 && ws[1..][j].0 == key && Apply(m1, ws[1..])[key] == ws[1..][j].1;
      assert ws[j + 1] == ws[1..][j];
    }
  }

  /** The position of the last assignment to `key`, given one at `l`. */
  lemma {:induction false} LastWith(ws: seq<(string, Record)>, key: string, l: nat) returns (last: nat)
    requires l < |ws| && ws[l].0 == key
    ensures last < |ws| && ws[last].0 == key
    ensures forall m :: last < m < |ws| ==> ws[m].0 != ws[last].0
    decreases |ws| - l
  {
    if forall m :: l < m < |ws| ==> ws[m].0 != key {
      last := l;
    } else {
      var m :| l < m < |ws| && ws[m].0 == key;
      last := LastWith(ws, key, m);
    }
  }

  /* ---------------- handle_results, stated on the tree ---------------- */

  /** A key is in the result exactly when some folder of an enabled plugin
      sits under a step index and group name that give that key. */
  lemma ResultKeys(parser: FomodParser, key: string)
    ensures key in HandleResults(parser) <==>
            exists k :: 0 <= k < |Sites(parser)| && Sites(parser)[k].plugin.enabled
                        && Key(Sites(parser)[k].index, Sites(parser)[k].groupName) == key
  {
    var s := Sites(parser);
    var ws := Writes(s);
    ApplyKeys(map[], ws, key);
    if exists j :: 0 <= j < |ws| && ws[j].0 == key {
      var j :| 0 <= j < |ws| && ws[j].0 == key;
      WritesMembers(s, ws[j]);
    }
    if exists k :: 0 <= k < |s| && s[k].plugin.enabled && Key(s[k].index, s[k].groupName) == key {
      var k :| 0 <= k < |s| && s[k].plugin.enabled && Key(s[k].index, s[k].groupName) == key;
      var w := (key, ToDict(s[k].folder));
      WritesMembers(s, w);
      var j :| 0 <= j < |ws| && ws[j] == w;
    }
  }

  /** Every value in the result is the record of a folder of an enabled
      plugin filed under that key. */
  lemma ResultValues(parser: FomodParser, key: string)
    requires key in HandleResults(parser)
    ensures exists k :: 0 <= k < |Sites(parser)| && Sites(parser)[k].plugin.enabled
                        && Key(Sites(parser)[k].index, Sites(parser)[k].groupName) == key
                        && HandleResults(parser)[key] == ToDict(Sites(parser)[k].folder)
  {
    var s := Sites(parser);
    var ws := Writes(s);
    ApplyValues(map[], ws, key);
    var j :| 0 <= j < |ws| && ws[j].0 == key && Apply(map[], ws)[key] == ws[j].1;
    WritesMembers(s, ws[j]);
  }

  /** With no plugin enabled the result is empty. */
  lemma NothingEnabledEmpty(parser: FomodParser)
    requires forall k :: 0 <= k < |Sites(parser)| ==> !Sites(parser)[k].plugin.enabled
    ensures HandleResults(parser) == map[]
  {
    forall key | key in HandleResults(parser)
      ensures false
    {
      ResultKeys(parser, key);
    }
  }

  /** Last write wins: a folder of an enabled plugin that no later enabled
      folder shares a key with is the value under its key. */
  lemma LastFolderWins(parser: FomodParser, k: nat)
    requires k < |Sites(parser)| && Sites(parser)[k].plugin.enabled
    requires forall l :: k < l < |Sites(parser)| && Sites(parser)[l].plugin.enabled
               ==> Key(Sites(parser)[l].index, Sites(parser)[l].groupName)
                   != Key(Sites(parser)[k].index, Sites(parser)[k].groupName)
    ensures var key := Key(Sites(parser)[k].index, Sites(parser)[k].groupName);
            key in HandleResults(parser) && HandleResults(parser)[key] == ToDict(Sites(parser)[k].folder)
  {
    var s := Sites(parser);
    var key := Key(s[k].index, s[k].groupName);
    var before := Writes(s[..k]);
    var after := Writes(s[k + 1..]);
    assert s == s[..k] + [s[k]] + s[k + 1..];
    WritesAppend(s[..k] + [s[k]], s[k + 1..]);
    WritesAppend(s[..k], [s[k]]);
    assert Writes([s[k]]) == [(key, ToDict(s[k].folder))];
    var ws := before + [(key, ToDict(s[k].folder))] + after;
    assert Writes(s) == ws;
    forall l | |before| < l < |ws|
      ensures ws[l].0 != key
    {
      var w := ws[l];
      assert w == after[l - |before| - 1];
      assert w in after;
      WritesMembers(s[k + 1..], w);
      var m :| 0 <= m < |s[k + 1..]| && s[k + 1..][m].plugin.enabled
               && w == (Key(s[k + 1..][m].index, s[k + 1..][m].groupName), ToDict(s[k + 1..][m].folder));
      assert s[k + 1..][m] == s[k + 1 + m];
    }
    ApplyLast(map[], ws, |before|);
  }
}

=== FILE: modmodel.dfy ===
/**
 * The table model of `models.py` over one profile of the settings
 * document: reading a cell, ticking the `enabled` check box, counting rows
 * and moving a row up or down. The row list is the profile's own list,
 * so every change is a change of the profile.
 */
module ModModel {
  import opened Wrappers
  import opened Settings

  /** What Python raises when a row, a column or the profile is missing. */
  datatype ModelError = IndexError | TypeError | AttributeError

  /** The Qt constants the model compares against. */
  const DisplayRole: int := 0
  const CheckStateRole: int := 10
  const Unchecked: int := 0
  const Checked: int := 2

  /** The column headers, in column order. */
  const Headers: seq<string> := ["enabled", "name", "path"]

  /** A cell as `data` returns it: a check state, a text, or `None`. */
  datatype CellValue = State(checkState: int) | Text(text: string) | NoValue

  /* ---------------- reading the settings ---------------- */

  /** `parse_mods_from_settings`: `doc` is `None` for an empty (falsy)
      document. The result is the row list, `None` when the profile is not in
      the document. */
  function ParseModsFromSettings(doc: Option<GameSetting>, profile: string): (r: Option<Profile>)
    ensures doc.None? ==> r == Some([])
    ensures doc.Some? ==> (r.Some? <==> profile in doc.value.profiles)
    ensures doc.Some? && r.Some? ==> r.value == doc.value.profiles[profile]
  {
    match doc
    case None => Some([])
    case Some(gs) => if profile in gs.profiles then Some(gs.profiles[profile]) else None
  }

  /** `rowCount`: `len(mod_order)`, which raises on `None`. */
  function RowCount(modOrder: Option<Profile>): (r: Result<nat, ModelError>)
    ensures r.Success? <==> modOrder.Some?
    ensures r.Success? ==> r.value == |modOrder.value|
  {
    match modOrder
    case None => Failure(TypeError)
    case Some(rows) => Success(|rows|)
  }

  /** `data`: the row is looked up first (raising when it is missing), then
      the check state of the `enabled` column, or the text of the `name` and
      `path` columns; anything else is `None`. */
  function Data(gs: GameSetting, profile: string, row: nat, column: nat, role: int): (r: Result<CellValue, ModelError>)
    ensures r.Success? ==> profile in gs.profiles && row < |gs.profiles[profile]|
    ensures r.Success? && role == CheckStateRole && column == 0
            ==> (r.value == State(Checked) <==> gs.profiles[profile][row].enabled)
    ensures r.Success? && role == DisplayRole && column == 2
            ==> (r.value.Text? <==> gs.profiles[profile][row].name in gs.mods)
    ensures r.Success? && role == DisplayRole && column == 2 && r.value.Text?
            ==> r.value.text == gs.mods[gs.profiles[profile][row].name]
  {
    if profile !in gs.profiles then Failure(TypeError)
    else if row >= |gs.profiles[profile]| then Failure(IndexError)
    else
      var e := gs.profiles[profile][row];
      if role == CheckStateRole && column >= |Headers| then Failure(IndexError)
      else if role == CheckStateRole && Headers[column] == "enabled" then
        Success(State(if e.enabled then Checked else Unchecked))
      else if role == DisplayRole then
        if column >= |Headers| then Failure(IndexError)
        else if Headers[column] == "name" then Success(Text(e.name))
        else if Headers[column] == "path" then
          (if e.name in gs.mods then Success(Text(gs.mods[e.name])) else Success(NoValue))
        else Success(NoValue)
      else Success(NoValue)
  }

  /** `setData`: with the check-state role on the `enabled` column the row's
      `enabled` becomes `value == Checked`; any other role or column changes
      nothing. */
  function SetData(gs: GameSetting, profile: string, row: nat, column: nat, value: int, role: int)
    : (r: Result<GameSetting, ModelError>)
    ensures role != CheckStateRole || (column < |Headers| && column != 0) ==> r == Success(gs)
    ensures r.Success? ==> r.value.mods == gs.mods && r.value.profiles.Keys == gs.profiles.Keys
    ensures r.Success? ==> forall q :: q in gs.profiles && q != profile ==> r.value.profiles[q] == gs.profiles[q]
    ensures r.Success? && role == CheckStateRole && column == 0 ==>
              profile in gs.profiles && row < |gs.profiles[profile]|
              && |r.value.profiles[profile]| == |gs.profiles[profile]|
              && r.value.profiles[profile][row] == gs.profiles[profile][row].(enabled := value == Checked)
              && forall i :: 0 <= i < |gs.profiles[profile]| && i != row
                   ==> r.value.profiles[profile][i] == gs.profiles[profile][i]
    ensures role == CheckStateRole && column == 0 ==>
              (r.Success? <==> profile in gs.profiles && row < |gs.profiles[profile]|)
  {
    if role == CheckStateRole then
      if column >= |Headers| then Failure(IndexError)
      else if Headers[column] != "enabled" then Success(gs)
      else if profile !in gs.profiles then Failure(TypeError)
      else
        var rows := gs.profiles[profile];
        if row >= |rows| then Failure(IndexError)
        else Success(gs.(profiles := gs.profiles[profile := rows[row := rows[row].(enabled := value == Checked)]]))
    else Success(gs)
  }

  /** Ticking a box and reading it back: the check state shown is the one set. */
  lemma SetDataThenData(gs: GameSetting, profile: string, row: nat, value: int)
    requires SetData(gs, profile, row, 0, value, CheckStateRole).Success?
    ensures Data(SetData(gs, profile, row, 0, value, CheckStateRole).value, profile, row, 0, CheckStateRole)
         == Success(State(if value == Checked then Checked else Unchecked))
  {
  }

  /** The rows `data` can show are exactly the first `rowCount` ones. */
  lemma RowCountBoundsData(gs: GameSetting, profile: string, row: nat, column: nat, role: int)
    requires RowCount(ParseModsFromSettings(Some(gs), profile)).Success?
    ensures Data(gs, profile, row, column, role).Success?
            ==> row < RowCount(ParseModsFromSettings(Some(gs), profile)).value
    ensures row < RowCount(ParseModsFromSettings(Some(gs), profile)).value && column < |Headers|
            ==> Data(gs, profile, row, column, role).Success?
  {
  }

  /* ---------------- reordering ---------------- */

  /** `list.pop(i)`: the removed element and the rest, in order. */
  function Pop(s: Profile, i: nat): (r: Result<(Entry, Profile), ModelError>)
    ensures r.Success? <==> i < |s|
    ensures r.Success? ==> r.value.0 == s[i] && |r.value.1| + 1 == |s|
    ensures r.Success? ==> forall k :: 0 <= k < |r.value.1| ==> r.value.1[k] == s[if k < i then k else k + 1]
  {
    if i < |s| then Success((s[i], s[..i] + s[i + 1..])) else Failure(IndexError)
  }

  /** `list.insert(i, x)` for `i >= 0`: an index past the end appends. */
  function InsertAt(s: Profile, i: nat, x: Entry): (r: Profile)
    ensures |r| == |s| + 1
    ensures i < |s| ==> r[i] == x
    ensures i >= |s| ==> r[|s|] == x
    ensures forall k :: 0 <= k < |s| ==> r[if k < i then k else k + 1] == s[k]
  {
    if i >= |s| then s + [x] else s[..i] + [x] + s[i..]
  }

  /** `_switch_rows`: pop the row at `oldIndex`, insert it at `newIndex`.
      With no row list (`None`) the `pop` raises `AttributeError`. */
  function SwitchRows(modOrder: Option<Profile>, oldIndex: nat, newIndex: nat): (r: Result<Profile, ModelError>)
    ensures modOrder.None? ==> r == Failure(AttributeError)
    ensures modOrder.Some? ==> (r.Success? <==> oldIndex < |modOrder.value|)
    ensures r.Success? ==> modOrder.Some? && multiset(r.value) == multiset(modOrder.value)
  {
    match modOrder
    case None => Failure(AttributeError)
    case Some(s) =>
      match Pop(s, oldIndex)
      case Failure(e) => Failure(e)
      case Success(popped) =>
        var (x, rest) := popped;
        assert s == s[..oldIndex] + [x] + s[oldIndex + 1..];
        assert rest == s[..oldIndex] + s[oldIndex + 1..];
        InsertPermutes(rest, newIndex, x);
        Success(InsertAt(rest, newIndex, x))
  }

  lemma InsertPermutes(s: Profile, i: nat, x: Entry)
    ensures multiset(InsertAt(s, i, x)) == multiset(s) + multiset{x}
  {
    if i < |s| {
      assert s == s[..i] + s[i..];
    }
  }

  /** Entries `i` and `j` exchanged, everything else in place. */
  function Swap(s: Profile, i: nat, j: nat): Profile
    requires i < |s| && j < |s|
  {
    s[i := s[j]][j := s[i]]
  }

  /** Popping row `i + 1` and inserting it at `i`, or popping row `i` and
      inserting it at `i + 1`, both exchange the two neighbours. */
  lemma SwitchAdjacent(s: Profile, i: nat)
    requires i + 1 < |s|
    ensures SwitchRows(Some(s), i + 1, i) == Success(Swap(s, i, i + 1))
    ensures SwitchRows(Some(s), i, i + 1) == Success(Swap(s, i, i + 1))
  {
    SwitchUpOne(s, i);
    SwitchDownOne(s, i);
  }

  lemma SwitchUpOne(s: Profile, i: nat)
    requires i + 1 < |s|
    ensures SwitchRows(Some(s), i + 1, i) == Success(Swap(s, i, i + 1))
  {
    var rest := s[..i + 1] + s[i + 2..];
    assert Pop(s, i + 1) == Success((s[i + 1], rest));
    var up := InsertAt(rest, i, s[i + 1]);
    assert up == s[..i] + [s[i + 1]] + [s[i]] + s[i + 2..];
    assert up == Swap(s, i, i + 1);
  }

  lemma SwitchDownOne(s: Profile, i: nat)
    requires i + 1 < |s|
    ensures SwitchRows(Some(s), i, i + 1) == Success(Swap(s, i, i + 1))
  {
    var rest := s[..i] + s[i + 1..];
    assert Pop(s, i) == Success((s[i], rest));
    var down := InsertAt(rest, i + 1, s[i]);
    assert down == s[..i] + [s[i + 1]] + [s[i]] + s[i + 2..];
    assert down == Swap(s, i, i + 1);
  }

  /** Popping the last row and inserting it past the end puts it back. */
  lemma SwitchLast(s: Profile)
    requires |s| > 0
    ensures SwitchRows(Some(s), |s| - 1, |s|) == Success(s)
  {
    var t := SwitchRows(Some(s), |s| - 1, |s|).value;
    assert |t| == |s|;
    assert forall k :: 0 <= k < |s| ==> t[k] == s[k];
    assert t == s;
  }

  /** `move_target_row_up`: the first row stays; any other row trades places
      with the one above; a row past the end raises, and so does any row but
      the first when the profile is missing. */
  function MoveTargetRowUp(modOrder: Option<Profile>, row: nat): (r: Result<Option<Profile>, ModelError>)
    ensures row == 0 ==> r == Success(modOrder)
    ensures modOrder.None? && 0 < row ==> r == Failure(AttributeError)
    ensures modOrder.Some? && 0 < row < |modOrder.value| ==> r == Success(Some(Swap(modOrder.value, row - 1, row)))
    ensures modOrder.Some? && 0 < row && |modOrder.value| <= row ==> r == Failure(IndexError)
  {
    if row == 0 then Success(modOrder)
    else
      if modOrder.Some? && row < |modOrder.value| then SwitchAdjacent(modOrder.value, row - 1); Lift(SwitchRows(modOrder, row, row - 1))
      else Lift(SwitchRows(modOrder, row, row - 1))
  }

  /** `move_target_row_down`: any row before the last trades places with the
      one below; the last row stays (the insert past the end appends it
      again), `row == rowCount()` returns early, beyond that the pop raises.
      With the profile missing, `rowCount()` itself raises. */
  function MoveTargetRowDown(modOrder: Option<Profile>, row: nat): (r: Result<Option<Profile>, ModelError>)
    ensures modOrder.None? ==> r == Failure(TypeError)
    ensures modOrder.Some? && row + 1 < |modOrder.value| ==> r == Success(Some(Swap(modOrder.value, row, row + 1)))
    ensures modOrder.Some? && (row + 1 == |modOrder.value| || row == |modOrder.value|) ==> r == Success(modOrder)
    ensures modOrder.Some? && row > |modOrder.value| ==> r == Failure(IndexError)
  {
    match RowCount(modOrder)
    case Failure(e) => Failure(e)
    case Success(n) =>
      var s := modOrder.value;
      if row == n then Success(modOrder)
      else if row + 1 < n then SwitchAdjacent(s, row); Lift(SwitchRows(modOrder, row, row + 1))
      else if row + 1 == n then SwitchLast(s); Lift(SwitchRows(modOrder, row, row + 1))
      else Lift(SwitchRows(modOrder, row, row + 1))
  }

  /** The row list after a successful switch is the model's new `mod_order`. */
  function Lift(r: Result<Profile, ModelError>): Result<Option<Profile>, ModelError>
  {
    match r
    case Failure(e) => Failure(e)
    case Success(t) => Success(Some(t))
  }

  /** Moving a row down and then back up restores the order. */
  lemma MoveDownThenUp(s: Profile, row: nat)
    requires row + 1 < |s|
    ensures MoveTargetRowUp(MoveTargetRowDown(Some(s), row).value, row + 1) == Success(Some(s))
  {
    var t := Swap(s, row, row + 1);
    assert Swap(t, row, row + 1) == s;
  }
}

=== FILE: modpack.dfy ===
/**
 * The overlay engine of `modpack.py`: translating a path inside a mod
 * folder to the target folder, creating directories, replacing files by
 * hard links, walking one mod (`add_mod`) and folding that walk over a
 * profile (`initialize_configs`). Every operation is a pure transformer of
 * the target filesystem map.
 */
module ModPack {
  import opened Wrappers
  import opened Paths
  import opened FileSystem
  import opened Settings

  /* ---------------- path translation ---------------- */

  /** The string `convert_from_input_to_output` appends to the destination:
      the input's path string with every occurrence of the mod folder's
      path string deleted and the leading separators stripped. */
  function StripModFolder(modFolder: Path, input: Path): (r: string)
    ensures |r| == 0 || r[0] != '/'
    ensures |r| <= |PathString(input)|
  {
    LStrip(RemoveAll(PathString(input), PathString(modFolder)))
  }

  /** `convert_from_input_to_output` as written: the destination joined
      with the stripped string. The result always lies at or below the
      destination, and the appended components are non-empty and have no
      separator. */
  function Convert(modFolder: Path, dest: Path, input: Path): (r: Path)
    ensures |dest| <= |r| && r[..|dest|] == dest
    ensures forall i :: |dest| <= i < |r| ==> |r[i]| > 0 && '/' !in r[i]
  {
    dest + Split(StripModFolder(modFolder, input))
  }

  /** The translation the code is after: the input's position below the mod
      folder, reproduced below the destination (pathlib's `relative_to`,
      which fails for an input outside the mod folder). */
  function Relocate(modFolder: Path, dest: Path, input: Path): (r: Option<Path>)
    ensures r.Some? <==> modFolder <= input
    ensures r.Some? ==> dest <= r.value && modFolder + r.value[|dest|..] == input
  {
    if modFolder <= input then
      var out := dest + input[|modFolder|..];
      assert out[|dest|..] == input[|modFolder|..];
      Some(out)
    else None
  }

  /** Relocating back from the destination to the mod folder recovers the input. */
  lemma RelocateRoundTrip(modFolder: Path, dest: Path, input: Path)
    requires Relocate(modFolder, dest, input).Some?
    ensures Relocate(dest, modFolder, Relocate(modFolder, dest, input).value) == Some(input)
  {
    var out := Relocate(modFolder, dest, input).value;
    assert out[|dest|..] == input[|modFolder|..];
  }

  /** Converting the mod folder itself yields the destination folder. */
  lemma ConvertModFolderItself(modFolder: Path, dest: Path)
    ensures Convert(modFolder, dest, modFolder) == dest
  {
    var pat := PathString(modFolder);
    assert |pat| > 0;
    RemoveAllLeading(pat, "");
    assert pat + "" == pat;
    assert Split("") == [];
  }

  /** As long as the mod folder's path string does not occur again below the
      mod folder, the code's translation is the intended one. */
  lemma ConvertAgreesWithRelocate(modFolder: Path, dest: Path, rel: Path)
    requires ValidPath(modFolder) && ValidPath(rel)
    requires !Occurs(Render(rel), PathString(modFolder))
    ensures Convert(modFolder, dest, modFolder + rel) == dest + rel
    ensures Relocate(modFolder, dest, modFolder + rel) == Some(dest + rel)
  {
    assert (modFolder + rel)[|modFolder|..] == rel;
    if |modFolder| == 0 {
      if |rel| > 0 {
        RenderStartsWithSeparator(rel);
        assert false;
      }
      assert modFolder + rel == modFolder;
      ConvertModFolderItself(modFolder, dest);
      assert dest + rel == dest;
    } else {
      var pat := Render(modFolder);
      assert PathString(modFolder) == pat;
      RenderAppend(modFolder, rel);
      assert PathString(modFolder + rel) == pat + Render(rel);
      RenderStartsWithSeparator(modFolder);
      RemoveAllLeading(pat, Render(rel));
      RemoveAllAbsent(Render(rel), pat);
      SplitLStrip(Render(rel));
      SplitRender(rel);
    }
  }

  /** The two translations part ways when the mod folder's string occurs
      again: for the mod folder /m, the file /m/d/m.e lands at dest/d.e
      instead of dest/d/m.e. */
  lemma ConvertDropsRepeatedFolder(dest: Path)
    ensures Convert(["m"], dest, ["m", "d", "m.e"]) == dest + ["d.e"]
    ensures Relocate(["m"], dest, ["m", "d", "m.e"]) == Some(dest + ["d", "m.e"])
  {
    StripExample();
    SplitExample();
    assert ["m", "d", "m.e"][1..] == ["d", "m.e"];
  }

  lemma StripExample()
    ensures StripModFolder(["m"], ["m", "d", "m.e"]) == "d.e"
  {
    RenderExample();
    RemoveAllExample();
    assert "/d.e"[1..] == "d.e";
  }

  lemma RenderExample()
    ensures PathString(["m"]) == "/m"
    ensures PathString(["m", "d", "m.e"]) == "/m/d/m.e"
  {
    assert ["m"][1..] == [];
    assert ["m", "d", "m.e"][1..] == ["d", "m.e"];
    assert ["d", "m.e"][1..] == ["m.e"];
    assert ["m.e"][1..] == [];
  }

  lemma RemoveAllExample()
    ensures RemoveAll("/m/d/m.e", "/m") == "/d.e"
  {
    var pat := "/m";
    assert RemoveAll("e", pat) == "e";
    assert ".e"[..2][0] != pat[0];
    assert RemoveAll(".e", pat) == ".e";
    assert "/m.e"[..2] == pat;
    assert "/m.e"[2..] == ".e";
    assert RemoveAll("/m.e", pat) == ".e";
    assert "d/m.e"[..2][0] != pat[0];
    assert "d/m.e"[1..] == "/m.e";
    assert RemoveAll("d/m.e", pat) == "d.e";
    assert "/d/m.e"[..2][1] != pat[1];
    assert "/d/m.e"[1..] == "d/m.e";
    assert RemoveAll("/d/m.e", pat) == "/d.e";
    assert "/m/d/m.e"[..2] == pat;
    assert "/m/d/m.e"[2..] == "/d/m.e";
  }

  lemma SplitExample()
    ensures Split("d.e") == ["d.e"]
  {
    assert Chunks("", "d.e") == ["d.e"];
    assert "e"[1..] == "" && "d." + ['e'] == "d.e";
    assert Chunks("e", "d.") == ["d.e"];
    assert ".e"[1..] == "e" && "d" + ['.'] == "d.";
    assert Chunks(".e", "d") == ["d.e"];
    assert "d.e"[1..] == ".e" && "" + ['d'] == "d";
  }

  /* ---------------- primitive filesystem steps ---------------- */

  /** `output_path.mkdir(exist_ok=True)`: an existing directory is
      tolerated, an existing file is an error, and a missing parent is an
      error. */
  function CreateFolder(fs: Fs, at: Path): (r: Result<Fs, Error>)
    ensures r.Success? <==> (at in fs && fs[at] == Dir) || (at !in fs && ParentIsDir(fs, at))
    ensures r.Success? ==> r.value == fs[at := Dir]
  {
    if at in fs then
      if fs[at] == Dir then
        assert fs[at := Dir] == fs;
        Success(fs)
      else Failure(AlreadyExists(at))
    else if ParentIsDir(fs, at) then Success(fs[at := Dir])
    else Failure(NotFound(at))
  }

  /** `handle_symlinking` after translation: an existing entry is unlinked
      (which fails on a directory), then `source` is hard-linked at `at`
      (which fails when the parent directory is missing). */
  function HandleSymlinking(fs: Fs, at: Path, source: Path): (r: Result<Fs, Error>)
    ensures r.Success? <==> !(at in fs && fs[at] == Dir) && ParentIsDir(fs, at)
    ensures r.Success? ==> r.value == fs[at := Link(source)]
  {
    if at in fs && fs[at] == Dir then Failure(IsADirectory(at))
    else if !ParentIsDir(fs, at) then Failure(NotFound(at))
    else Success(fs[at := Link(source)])
  }

  /** A second `mkdir(exist_ok=True)` of the same folder changes nothing. */
  lemma CreateFolderIdempotent(fs: Fs, at: Path)
    requires CreateFolder(fs, at).Success?
    ensures CreateFolder(CreateFolder(fs, at).value, at) == CreateFolder(fs, at)
  {
  }

  /** Linking the same file twice leaves what linking it once leaves. */
  lemma HandleSymlinkingIdempotent(fs: Fs, at: Path, source: Path)
    requires HandleSymlinking(fs, at, source).Success?
    ensures HandleSymlinking(HandleSymlinking(fs, at, source).value, at, source)
         == HandleSymlinking(fs, at, source)
  {
    var fs1 := fs[at := Link(source)];
    if |at| > 0 {
      assert Parent(at) != at;
    }
    assert ParentIsDir(fs1, at);
    assert fs1[at := Link(source)] == fs1;
  }

  /* ---------------- walking one mod ---------------- */

  /** One entry of the recursive glob of a mod folder, relative to that folder. */
  datatype TreeEntry = TreeEntry(rel: Path, isDir: bool)

  /** The listing of one mod folder, in the order glob yields it. */
  type Tree = seq<TreeEntry>

  /** glob never lists the folder itself. */
  predicate ValidTree(t: Tree)
  {
    forall i :: 0 <= i < |t| ==> |t[i].rel| > 0
  }

  /** glob lists every entry once. */
  predicate DistinctRels(t: Tree)
  {
    forall i, j :: 0 <= i < j < |t| ==> t[i].rel != t[j].rel
  }

  /** The recursive glob walks top-down: an entry below the top level of the
      mod folder comes after the directory that holds it. */
  predicate ParentFirst(t: Tree)
  {
    forall k :: 0 <= k < |t| && |t[k].rel| > 1 ==> TreeEntry(Parent(t[k].rel), true) in t[..k]
  }

  /** The filesystem call the loop body of `add_mod` makes for one entry. */
  datatype Op = MakeDir(at: Path) | LinkFile(at: Path, source: Path)

  /** What an operation leaves at its path. */
  function Effect(op: Op): Node
  {
    match op
    case MakeDir(_) => Dir
    case LinkFile(_, source) => Link(source)
  }

  function Step(fs: Fs, op: Op): (r: Result<Fs, Error>)
    ensures r.Success? ==> r.value == fs[op.at := Effect(op)]
  {
    match op
    case MakeDir(at) => CreateFolder(fs, at)
    case LinkFile(at, source) => HandleSymlinking(fs, at, source)
  }

  /** Performs the operations in order, stopping at the first failure. A
      successful run removes nothing and leaves every target present. */
  function Run(fs: Fs, ops: seq<Op>): (r: Result<Fs, Error>)
    ensures r.Success? ==> fs.Keys <= r.value.Keys
    ensures r.Success? ==> forall k :: 0 <= k < |ops| ==> ops[k].at in r.value
    decreases |ops|
  {
    if |ops| == 0 then Success(fs)
    else
      match Step(fs, ops[0])
      case Failure(e) => Failure(e)
      case Success(fs1) =>
        assert forall k :: 1 <= k < |ops| ==> ops[k] == ops[1..][k - 1];
        Run(fs1, ops[1..])
  }

  /** The call `add_mod` makes for one listed entry; the target is the entry's
      position below the destination. */
  function OpFor(folder: Path, dest: Path, e: TreeEntry): Op
  {
    if e.isDir then MakeDir(dest + e.rel) else LinkFile(dest + e.rel, folder + e.rel)
  }

  function ModOps(folder: Path, dest: Path, tree: Tree): (r: seq<Op>)
    ensures |r| == |tree|
  {
    seq(|tree|, k requires 0 <= k < |tree| => OpFor(folder, dest, tree[k]))
  }

  /** `ModPack(folder, dest).add_mod()`, each entry placed at its position
      below the destination. A successful walk removes nothing and leaves
      every listed entry present below the destination. */
  function AddMod(fs: Fs, folder: Path, dest: Path, tree: Tree): (r: Result<Fs, Error>)
    ensures r.Success? ==> fs.Keys <= r.value.Keys
    ensures r.Success? ==> forall e :: e in tree ==> dest + e.rel in r.value
  {
    var ops := ModOps(folder, dest, tree);
    assert forall k :: 0 <= k < |tree| ==> ops[k].at == dest + tree[k].rel;
    Run(fs, ops)
  }

  /** The call `add_mod` makes for one entry as the code is written: the
      target comes from `convert_from_input_to_output`. */
  function OpAsWritten(folder: Path, dest: Path, e: TreeEntry): Op
  {
    var at := Convert(folder, dest, folder + e.rel);
    if e.isDir then MakeDir(at) else LinkFile(at, folder + e.rel)
  }

  /** `add_mod` as written, with the `str.replace` translation. */
  function AddModAsWritten(fs: Fs, folder: Path, dest: Path, tree: Tree): Result<Fs, Error>
  {
    Run(fs, seq(|tree|, k requires 0 <= k < |tree| => OpAsWritten(folder, dest, tree[k])))
  }

  /** The mod folder's path string recurs nowhere below it, the condition
      under which `str.replace` strips only the leading folder. */
  predicate Unambiguous(folder: Path, tree: Tree)
  {
    ValidPath(folder)
    && forall k :: 0 <= k < |tree| ==> ValidPath(tree[k].rel) && !Occurs(Render(tree[k].rel), PathString(folder))
  }

  /** Under that condition the walk as written is the modelled walk. */
  lemma AddModAsWrittenAgrees(fs: Fs, folder: Path, dest: Path, tree: Tree)
    requires Unambiguous(folder, tree)
    ensures AddModAsWritten(fs, folder, dest, tree) == AddMod(fs, folder, dest, tree)
  {
    var written := seq(|tree|, k requires 0 <= k < |tree| => OpAsWritten(folder, dest, tree[k]));
    forall k | 0 <= k < |tree|
      ensures written[k] == ModOps(folder, dest, tree)[k]
    {
      ConvertAgreesWithRelocate(folder, dest, tree[k].rel);
    }
    assert written == ModOps(folder, dest, tree);
  }

  /** Every operation `add_mod` performs targets the translated path of a
      listed entry, and each listed entry yields its operation. */
  lemma OpForTranslates(folder: Path, dest: Path, e: TreeEntry)
    ensures Relocate(folder, dest, folder + e.rel) == Some(OpFor(folder, dest, e).at)
  {
    assert (folder + e.rel)[|folder|..] == e.rel;
  }

  /* ---------------- folding over a profile ---------------- */

  /** Everything `initialize_configs` reads besides the profile: the mod
      registry, the folder relative registry paths are resolved against,
      the target folder and the listing of each mod folder. */
  datatype Setup = Setup(
    mods: map<string, string>,
    inputFolder: Path,
    dest: Path,
    listings: map<Path, Tree>)

  /** `input_folder / mod_list.get(name)`. */
  function FolderOf(setup: Setup, name: string): Path
    requires name in setup.mods
  {
    ResolveAgainst(setup.inputFolder, setup.mods[name])
  }

  /** The listing of a registered mod's folder; glob of a missing folder is empty. */
  function TreeOf(setup: Setup, name: string): Tree
  {
    if name in setup.mods && FolderOf(setup, name) in setup.listings then
      setup.listings[FolderOf(setup, name)]
    else []
  }

  /** `initialize_configs`: each enabled entry's mod is added in profile
      order; disabled entries are skipped; an enabled entry naming no
      registered mod raises. */
  function InitializeConfigs(fs: Fs, profile: Profile, setup: Setup): (r: Result<Fs, Error>)
    ensures r.Success? ==> AllRegistered(profile, setup.mods)
    ensures r.Success? ==> fs.Keys <= r.value.Keys
    decreases |profile|
  {
    if |profile| == 0 then Success(fs)
    else
      assert forall i :: 1 <= i < |profile| ==> profile[i] == profile[1..][i - 1];
      if !profile[0].enabled then InitializeConfigs(fs, profile[1..], setup)
      else if profile[0].name !in setup.mods then Failure(MissingMod(profile[0].name))
      else
        match AddMod(fs, FolderOf(setup, profile[0].name), setup.dest, TreeOf(setup, profile[0].name))
        case Failure(e) => Failure(e)
        case Success(fs1) => InitializeConfigs(fs1, profile[1..], setup)
  }

  /** `initialize_configs` as written: every mod added with `add_mod` as
      written. */
  function InitializeConfigsAsWritten(fs: Fs, profile: Profile, setup: Setup): Result<Fs, Error>
    decreases |profile|
  {
    if |profile| == 0 then Success(fs)
    else if !profile[0].enabled then InitializeConfigsAsWritten(fs, profile[1..], setup)
    else if profile[0].name !in setup.mods then Failure(MissingMod(profile[0].name))
    else
      match AddModAsWritten(fs, FolderOf(setup, profile[0].name), setup.dest, TreeOf(setup, profile[0].name))
      case Failure(e) => Failure(e)
      case Success(fs1) => InitializeConfigsAsWritten(fs1, profile[1..], setup)
  }

  /** When no enabled mod's folder string recurs below that folder, the
      deploy as written is the modelled deploy. */
  lemma {:induction false} InitializeConfigsAsWrittenAgrees(fs: Fs, profile: Profile, setup: Setup)
    requires forall i :: 0 <= i < |profile| && profile[i].enabled && profile[i].name in setup.mods
               ==> Unambiguous(FolderOf(setup, profile[i].name), TreeOf(setup, profile[i].name))
    ensures InitializeConfigsAsWritten(fs, profile, setup) == InitializeConfigs(fs, profile, setup)
    decreases |profile|
  {
    if |profile| > 0 {
      assert forall i :: 1 <= i < |profile| ==> profile[i] == profile[1..][i - 1];
      var e := profile[0];
      if !e.enabled {
        InitializeConfigsAsWrittenAgrees(fs, profile[1..], setup);
      } else if e.name in setup.mods {
        var folder := FolderOf(setup, e.name);
        var tree := TreeOf(setup, e.name);
        AddModAsWrittenAgrees(fs, folder, setup.dest, tree);
        var r := AddMod(fs, folder, setup.dest, tree);
        if r.Success? {
          InitializeConfigsAsWrittenAgrees(r.value, profile[1..], setup);
        }
      }
    }
  }

  /** Every enabled entry names a registered mod. */
  predicate AllRegistered(profile: Profile, mods: map<string, string>)
  {
    forall i :: 0 <= i < |profile| && profile[i].enabled ==> profile[i].name in mods
  }

  /** The operations of one profile entry. */
  function EntryOps(e: Entry, setup: Setup): seq<Op>
  {
    if e.enabled && e.name in setup.mods then
      ModOps(FolderOf(setup, e.name), setup.dest, TreeOf(setup, e.name))
    else []
  }

  /** The flat list of operations `initialize_configs` performs. */
  function DeployOps(profile: Profile, setup: Setup): seq<Op>
    decreases |profile|
  {
    if |profile| == 0 then [] else EntryOps(profile[0], setup) + DeployOps(profile[1..], setup)
  }
}

=== FILE: overlay.dfy ===
/**
 * What deploying a profile leaves in the target: the override order
 * (the last enabled mod wins each file, directories are the union),
 * that disabled entries are ignored, that nothing outside the mods'
 * paths changes, that the filesystem stays a tree, and that deploying
 * twice gives what deploying once gives.
 */
module Overlay {
  import opened Wrappers
  import opened Paths
  import opened FileSystem
  import opened Settings
  import opened ModPack

  /* ---------------- the write map of an operation list ---------------- */

  /** For each path some operation targets, what the last such operation
      leaves there. Defined from the end of the list, independently of the
      front-to-back `Run`. */
  function Updates(ops: seq<Op>): map<Path, Node>
    decreases |ops|
  {
    if |ops| == 0 then map[]
    else Updates(ops[..|ops| - 1])[ops[|ops| - 1].at := Effect(ops[|ops| - 1])]
  }

  /** A path is written exactly when some operation targets it. */
  lemma {:induction false} UpdatesKeys(ops: seq<Op>, p: Path)
    ensures p in Updates(ops) <==> exists k :: 0 <= k < |ops| && ops[k].at == p
    decreases |ops|
  {
    if |ops| > 0 {
      var init := ops[..|ops| - 1];
      UpdatesKeys(init, p);
      if exists k :: 0 <= k < |init| && init[k].at == p {
        var k :| 0 <= k < |init| && init[k].at == p;
        assert ops[k].at == p;
      }
      if exists k :: 0 <= k < |ops| && ops[k].at == p {
        var k :| 0 <= k < |ops| && ops[k].at == p;
        if k < |init| {
          assert init[k].at == p;
        }
      }
    }
  }

  /** The last operation on a path decides what the path holds. */
  lemma {:induction false} UpdatesLast(ops: seq<Op>, j: nat)
    requires j < |ops|
    requires forall k :: j < k < |ops| ==> ops[k].at != ops[j].at
    ensures ops[j].at in Updates(ops) && Updates(ops)[ops[j].at] == Effect(ops[j])
    decreases |ops|
  {
    if j < |ops| - 1 {
      var init := ops[..|ops| - 1];
      assert init[j] == ops[j];
      forall k | j < k < |init|
        ensures init[k].at != init[j].at
      {
        assert init[k] == ops[k];
      }
      UpdatesLast(init, j);
    }
  }

  /** Writing `a` then `b` writes the union of both maps, `b` winning. */
  lemma {:induction false} UpdatesAppend(a: seq<Op>, b: seq<Op>)
    ensures Updates(a + b) == Updates(a) + Updates(b)
    decreases |b|
  {
    if |b| == 0 {
      assert a + b == a;
      assert Updates(a) + map[] == Updates(a);
    } else {
      var ab := a + b;
      var b' := b[..|b| - 1];
      assert ab[..|ab| - 1] == a + b';
      assert ab[|ab| - 1] == b[|b| - 1];
      UpdatesAppend(a, b');
      var last := b[|b| - 1];
      assert (Updates(a) + Updates(b'))[last.at := Effect(last)]
          == Updates(a) + Updates(b')[last.at := Effect(last)];
    }
  }

  /* ---------------- Run ---------------- */

  /** Running `a + b` runs `a` and then, from where it left off, `b`. */
  lemma {:induction false} RunAppend(fs: Fs, a: seq<Op>, b: seq<Op>)
    ensures Run(fs, a + b)
         == (if Run(fs, a).Success? then Run(Run(fs, a).value, b) else Run(fs, a))
    decreases |a|
  {
    if |a| == 0 {
      assert a + b == b;
    } else {
      assert (a + b)[0] == a[0];
      assert (a + b)[1..] == a[1..] + b;
      if Step(fs, a[0]).Success? {
        RunAppend(Step(fs, a[0]).value, a[1..], b);
      }
    }
  }

  /** A successful run leaves the starting filesystem overwritten by the
      write map: the last operation on each path wins, everything else is
      untouched. */
  lemma {:induction false} RunUpdates(fs: Fs, ops: seq<Op>)
    requires Run(fs, ops).Success?
    ensures Run(fs, ops).value == fs + Updates(ops)
    decreases |ops|
  {
    if |ops| > 0 {
      var fs1 := Step(fs, ops[0]).value;
      RunUpdates(fs1, ops[1..]);
      assert [ops[0]] + ops[1..] == ops;
      UpdatesAppend([ops[0]], ops[1..]);
      UpdatesSingle(ops[0]);
      OverrideAssoc(fs, Updates([ops[0]]), Updates(ops[1..]));
    }
  }

  lemma UpdatesSingle(op: Op)
    ensures Updates([op]) == map[op.at := Effect(op)]
  {
    assert [op][..0] == [];
  }

  lemma OverrideAssoc(a: Fs, b: Fs, c: Fs)
    ensures (a + b) + c == a + (b + c)
  {
  }

  /** Every path of `a` is in `b`, as a directory exactly when it is one in `a`. */
  ghost predicate SameKind(a: Fs, b: Fs)
  {
    forall p :: p in a ==> p in b && (a[p] == Dir <==> b[p] == Dir)
  }

  /** Along a successful run nothing is removed and no path changes between
      directory and file: mkdir refuses a file and unlink refuses a directory. */
  lemma {:induction false} KindsPersist(fs: Fs, ops: seq<Op>)
    requires Run(fs, ops).Success?
    ensures SameKind(fs, Run(fs, ops).value)
    decreases |ops|
  {
    if |ops| > 0 {
      var fs1 := Step(fs, ops[0]).value;
      assert SameKind(fs, fs1);
      KindsPersist(fs1, ops[1..]);
    }
  }

  /** A directory any operation creates is a directory at the end. */
  lemma {:induction false} MadeDirStays(fs: Fs, ops: seq<Op>, k: nat)
    requires Run(fs, ops).Success?
    requires k < |ops| && ops[k].MakeDir?
    ensures ops[k].at in Run(fs, ops).value && Run(fs, ops).value[ops[k].at] == Dir
    decreases |ops|
  {
    var fs1 := Step(fs, ops[0]).value;
    if k == 0 {
      KindsPersist(fs1, ops[1..]);
    } else {
      MadeDirStays(fs1, ops[1..], k - 1);
    }
  }

  /** A successful run keeps the filesystem a tree. */
  lemma {:induction false} RunKeepsWellFormed(fs: Fs, ops: seq<Op>)
    requires WellFormed(fs) && Run(fs, ops).Success?
    ensures WellFormed(Run(fs, ops).value)
    decreases |ops|
  {
    if |ops| > 0 {
      var op := ops[0];
      var fs1 := Step(fs, op).value;
      forall q | q in fs1 && |q| > 0
        ensures Parent(q) in fs1 && fs1[Parent(q)] == Dir
      {
        if q == op.at {
          if !(op.at in fs) {
            assert ParentIsDir(fs, op.at);
          } else if op.LinkFile? {
            assert ParentIsDir(fs, op.at);
          }
          assert |Parent(q)| < |q|;
        } else if Parent(q) == op.at {
          assert fs[op.at] == Dir;
        }
      }
      RunKeepsWellFormed(fs1, ops[1..]);
    }
  }

  /* ---------------- running twice ---------------- */

  /** `m` restricted to the keys in `keys`. */
  function Restrict(m: Fs, keys: set<Path>): Fs
  {
    map p | p in keys && p in m :: m[p]
  }

  /** The heart of idempotence. Run `ops` from `s1` to `fin`, and run them
      again from `fin` overwritten by `s1` on the paths `keys` (the paths
      already written earlier on): every step succeeds again and the
      second run ends in `fin` too. */
  lemma {:induction false} Rerun(s1: Fs, ops: seq<Op>, fin: Fs, keys: set<Path>)
    requires Run(s1, ops) == Success(fin)
    requires keys <= s1.Keys
    ensures Run(fin + Restrict(s1, keys), ops) == Success(fin)
    decreases |ops|
  {
    var s2 := fin + Restrict(s1, keys);
    if |ops| == 0 {
      assert s2 == fin;
    } else {
      var op := ops[0];
      var s1' := Step(s1, op).value;
      assert s1' == s1[op.at := Effect(op)];
      KindsPersist(s1', ops[1..]);
      var keys' := keys + {op.at};
      // The parent check passes again.
      if op.LinkFile? || op.at !in s1 {
        var par := Parent(op.at);
        assert ParentIsDir(s1, op.at);
        assert par != op.at;
        assert par in s1' && s1'[par] == Dir;
        assert par in s2 && s2[par] == Dir;
      }
      // The path itself has the same kind in s2 as in s1'.
      if op.MakeDir? {
        assert op.at in s2 && s2[op.at] == Dir;
        assert Step(s2, op) == Success(s2);
        assert s2 == s2[op.at := Dir];
      } else {
        assert !(op.at in s2 && s2[op.at] == Dir);
        assert Step(s2, op) == Success(s2[op.at := Effect(op)]);
      }
      var s2' := s2[op.at := Effect(op)];
      assert Restrict(s1', keys') == Restrict(s1, keys)[op.at := Effect(op)];
      assert s2' == fin + Restrict(s1', keys');
      Rerun(s1', ops[1..], fin, keys');
    }
  }

  /** Running the same operations on their own result changes nothing. */
  lemma RunIdempotent(fs: Fs, ops: seq<Op>)
    requires Run(fs, ops).Success?
    ensures Run(Run(fs, ops).value, ops) == Run(fs, ops)
  {
    var fin := Run(fs, ops).value;
    Rerun(fs, ops, fin, {});
    assert fin + Restrict(fs, {}) == fin;
  }

  /* ---------------- initialize_configs ---------------- */

  /** With every enabled entry registered, `initialize_configs` runs the
      concatenation of the entries' operations. */
  lemma {:induction false} InitializeConfigsRuns(fs: Fs, profile: Profile, setup: Setup)
    requires AllRegistered(profile, setup.mods)
    ensures InitializeConfigs(fs, profile, setup) == Run(fs, DeployOps(profile, setup))
    decreases |profile|
  {
    if |profile| > 0 {
      var e := profile[0];
      var rest := DeployOps(profile[1..], setup);
      RunAppend(fs, EntryOps(e, setup), rest);
      if !e.enabled {
        assert EntryOps(e, setup) + rest == rest;
        InitializeConfigsRuns(fs, profile[1..], setup);
      } else {
        var r := AddMod(fs, FolderOf(setup, e.name), setup.dest, TreeOf(setup, e.name));
        if r.Success? {
          InitializeConfigsRuns(r.value, profile[1..], setup);
        }
      }
    }
  }

  /** `initialize_configs` ignores disabled entries: it does exactly what it
      does for the enabled entries alone. */
  lemma {:induction false} IgnoresDisabled(fs: Fs, profile: Profile, setup: Setup)
    ensures InitializeConfigs(fs, profile, setup) == InitializeConfigs(fs, EnabledOnly(profile), setup)
    decreases |profile|
  {
    if |profile| > 0 {
      var e := profile[0];
      if !e.enabled {
        assert EnabledOnly(profile) == EnabledOnly(profile[1..]);
        IgnoresDisabled(fs, profile[1..], setup);
      } else {
        var en := EnabledOnly(profile);
        assert en == [e] + EnabledOnly(profile[1..]);
        assert en[0] == e && en[1..] == EnabledOnly(profile[1..]);
        if e.name in setup.mods {
          var r := AddMod(fs, FolderOf(setup, e.name), setup.dest, TreeOf(setup, e.name));
          if r.Success? {
            IgnoresDisabled(r.value, profile[1..], setup);
          }
        }
      }
    }
  }

  /** A profile with every entry disabled leaves the target as it was. */
  lemma AllDisabledUnchanged(fs: Fs, profile: Profile, setup: Setup)
    requires forall i :: 0 <= i < |profile| ==> !profile[i].enabled
    ensures InitializeConfigs(fs, profile, setup) == Success(fs)
  {
    IgnoresDisabled(fs, profile, setup);
  }

  /** Deploying the same profile again onto the result of a successful
      deploy changes nothing. */
  lemma InitializeConfigsIdempotent(fs: Fs, profile: Profile, setup: Setup)
    requires InitializeConfigs(fs, profile, setup).Success?
    ensures InitializeConfigs(InitializeConfigs(fs, profile, setup).value, profile, setup)
         == InitializeConfigs(fs, profile, setup)
  {
    var fin := InitializeConfigs(fs, profile, setup).value;
    InitializeConfigsRuns(fs, profile, setup);
    InitializeConfigsRuns(fin, profile, setup);
    RunIdempotent(fs, DeployOps(profile, setup));
  }

  /** A successful deploy keeps the filesystem a tree. */
  lemma InitializeConfigsKeepsWellFormed(fs: Fs, profile: Profile, setup: Setup)
    requires WellFormed(fs)
    requires InitializeConfigs(fs, profile, setup).Success?
    ensures WellFormed(InitializeConfigs(fs, profile, setup).value)
  {
    InitializeConfigsRuns(fs, profile, setup);
    RunKeepsWellFormed(fs, DeployOps(profile, setup));
  }

  /* ---------------- which mod provides which path ---------------- */

  /** Entry `k` of the profile is enabled, registered, and its mod lists `e`. */
  predicate Provides(profile: Profile, setup: Setup, k: int, e: TreeEntry)
  {
    0 <= k < |profile| && profile[k].enabled && profile[k].name in setup.mods
    && e in TreeOf(setup, profile[k].name)
  }

  lemma ProvidesShift(profile: Profile, setup: Setup, k: int, e: TreeEntry)
    requires |profile| > 0 && k >= 0
    ensures Provides(profile[1..], setup, k, e) <==> Provides(profile, setup, k + 1, e)
  {
    if 0 <= k < |profile| - 1 {
      assert profile[1..][k] == profile[k + 1];
    }
  }

  /** Every operation of a deploy is the operation of a listed entry of an
      enabled, registered mod. */
  lemma {:induction false} DeployOpsOrigin(profile: Profile, setup: Setup, i: nat)
    requires i < |DeployOps(profile, setup)|
    ensures exists k, e :: Provides(profile, setup, k, e)
                        && DeployOps(profile, setup)[i] == OpFor(FolderOf(setup, profile[k].name), setup.dest, e)
    decreases |profile|
  {
    var head := EntryOps(profile[0], setup);
    var ops := DeployOps(profile, setup);
    if i < |head| {
      var tree := TreeOf(setup, profile[0].name);
      assert ops[i] == head[i];
      assert tree[i] in tree;
      assert Provides(profile, setup, 0, tree[i]);
    } else {
      DeployOpsOrigin(profile[1..], setup, i - |head|);
      var k, e :| Provides(profile[1..], setup, k, e)
        && DeployOps(profile[1..], setup)[i - |head|] == OpFor(FolderOf(setup, profile[1..][k].name), setup.dest, e);
      ProvidesShift(profile, setup, k, e);
      assert profile[1..][k] == profile[k + 1];
      assert ops[i] == DeployOps(profile[1..], setup)[i - |head|];
    }
  }

  /** Every listed entry of an enabled, registered mod yields its operation. */
  lemma {:induction false} DeployOpsComplete(profile: Profile, setup: Setup, k: int, e: TreeEntry)
    requires Provides(profile, setup, k, e)
    ensures OpFor(FolderOf(setup, profile[k].name), setup.dest, e) in DeployOps(profile, setup)
    decreases |profile|
  {
    if k == 0 {
      var tree := TreeOf(setup, profile[0].name);
      var i :| 0 <= i < |tree| && tree[i] == e;
      assert EntryOps(profile[0], setup)[i] == OpFor(FolderOf(setup, profile[0].name), setup.dest, e);
    } else {
      ProvidesShift(profile, setup, k - 1, e);
      assert profile[1..][k - 1] == profile[k];
      DeployOpsComplete(profile[1..], setup, k - 1, e);
    }
  }

  lemma AppendCancel(dest: Path, a: Path, b: Path)
    requires dest + a == dest + b
    ensures a == b
  {
    assert (dest + a)[|dest|..] == a;
    assert (dest + b)[|dest|..] == b;
  }

  /** No later enabled mod lists `e.rel`, so the rest of the deploy never
      writes its path. */
  lemma LaterModsSkip(profile: Profile, setup: Setup, e: TreeEntry)
    requires |profile| > 0
    requires forall k, e' :: 0 < k && Provides(profile, setup, k, e') ==> e'.rel != e.rel
    ensures setup.dest + e.rel !in Updates(DeployOps(profile[1..], setup))
  {
    var p := setup.dest + e.rel;
    var rest := DeployOps(profile[1..], setup);
    if p in Updates(rest) {
      UpdatesKeys(rest, p);
      var i :| 0 <= i < |rest| && rest[i].at == p;
      DeployOpsOrigin(profile[1..], setup, i);
      var k, e' :| Provides(profile[1..], setup, k, e')
        && rest[i] == OpFor(FolderOf(setup, profile[1..][k].name), setup.dest, e');
      ProvidesShift(profile, setup, k, e');
      AppendCancel(setup.dest, e'.rel, e.rel);
      assert false;
    }
  }

  /** Within the first mod, a listing without repeats writes `e` once. */
  lemma FirstModLast(profile: Profile, setup: Setup, e: TreeEntry)
    requires Provides(profile, setup, 0, e) && !e.isDir
    requires DistinctRels(TreeOf(setup, profile[0].name))
    ensures var u := Updates(EntryOps(profile[0], setup));
            setup.dest + e.rel in u && u[setup.dest + e.rel] == Link(FolderOf(setup, profile[0].name) + e.rel)
  {
    var head := EntryOps(profile[0], setup);
    var tree := TreeOf(setup, profile[0].name);
    var i :| 0 <= i < |tree| && tree[i] == e;
    forall m | i < m < |head|
      ensures head[m].at != head[i].at
    {
      if head[m].at == head[i].at {
        AppendCancel(setup.dest, tree[m].rel, tree[i].rel);
      }
    }
    UpdatesLast(head, i);
  }

  /** The write map of a deploy: `dest + rel` holds a link to the last
      enabled mod's file when no later enabled mod lists `rel`. */
  lemma {:induction false} UpdatesLastProvider(profile: Profile, setup: Setup, j: int, e: TreeEntry)
    requires Provides(profile, setup, j, e) && !e.isDir
    requires DistinctRels(TreeOf(setup, profile[j].name))
    requires forall k, e' :: j < k && Provides(profile, setup, k, e') ==> e'.rel != e.rel
    ensures var u := Updates(DeployOps(profile, setup));
            setup.dest + e.rel in u && u[setup.dest + e.rel] == Link(FolderOf(setup, profile[j].name) + e.rel)
    decreases |profile|
  {
    var p := setup.dest + e.rel;
    var head := EntryOps(profile[0], setup);
    var rest := DeployOps(profile[1..], setup);
    UpdatesAppend(head, rest);
    if j == 0 {
      LaterModsSkip(profile, setup, e);
      FirstModLast(profile, setup, e);
    } else {
      ProvidesShift(profile, setup, j - 1, e);
      assert profile[1..][j - 1] == profile[j];
      forall k, e' | j - 1 < k && Provides(profile[1..], setup, k, e')
        ensures e'.rel != e.rel
      {
        ProvidesShift(profile, setup, k, e');
      }
      UpdatesLastProvider(profile[1..], setup, j - 1, e);
    }
  }

  /** Override order: a file listed by enabled mod `j` and by no later
      enabled mod ends up linked to mod `j`'s copy. */
  lemma LastEnabledWins(fs: Fs, profile: Profile, setup: Setup, j: int, e: TreeEntry)
    requires InitializeConfigs(fs, profile, setup).Success?
    requires Provides(profile, setup, j, e) && !e.isDir
    requires DistinctRels(TreeOf(setup, profile[j].name))
    requires forall k, e' :: j < k && Provides(profile, setup, k, e') ==> e'.rel != e.rel
    ensures var fin := InitializeConfigs(fs, profile, setup).value;
            setup.dest + e.rel in fin && fin[setup.dest + e.rel] == Link(FolderOf(setup, profile[j].name) + e.rel)
  {
    InitializeConfigsRuns(fs, profile, setup);
    RunUpdates(fs, DeployOps(profile, setup));
    UpdatesLastProvider(profile, setup, j, e);
  }

  /** Directories are the union: a directory listed by any enabled mod is a
      directory in the target after a successful deploy. */
  lemma DirectoriesUnion(fs: Fs, profile: Profile, setup: Setup, k: int, e: TreeEntry)
    requires InitializeConfigs(fs, profile, setup).Success?
    requires Provides(profile, setup, k, e) && e.isDir
    ensures var fin := InitializeConfigs(fs, profile, setup).value;
            setup.dest + e.rel in fin && fin[setup.dest + e.rel] == Dir
  {
    InitializeConfigsRuns(fs, profile, setup);
    var ops := DeployOps(profile, setup);
    DeployOpsComplete(profile, setup, k, e);
    var i :| 0 <= i < |ops| && ops[i] == OpFor(FolderOf(setup, profile[k].name), setup.dest, e);
    MadeDirStays(fs, ops, i);
  }

  /** Nothing else changes: a path that is not `dest + rel` for a `rel`
      some enabled mod lists keeps its entry, or its absence. */
  lemma OthersUnchanged(fs: Fs, profile: Profile, setup: Setup, p: Path)
    requires InitializeConfigs(fs, profile, setup).Success?
    requires forall k, e :: Provides(profile, setup, k, e) ==> setup.dest + e.rel != p
    ensures var fin := InitializeConfigs(fs, profile, setup).value;
            (p in fin <==> p in fs) && (p in fs ==> fin[p] == fs[p])
  {
    InitializeConfigsRuns(fs, profile, setup);
    var ops := DeployOps(profile, setup);
    RunUpdates(fs, ops);
    UpdatesKeys(ops, p);
    if p in Updates(ops) {
      var i :| 0 <= i < |ops| && ops[i].at == p;
      DeployOpsOrigin(profile, setup, i);
      assert false;
    }
  }

  /** The paths a deploy writes are exactly the translated paths of the
      entries the enabled mods list. */
  lemma WrittenPaths(fs: Fs, profile: Profile, setup: Setup, p: Path)
    requires InitializeConfigs(fs, profile, setup).Success?
    ensures var fin := InitializeConfigs(fs, profile, setup).value;
            (exists k, e :: Provides(profile, setup, k, e) && setup.dest + e.rel == p)
            ==> p in fin
  {
    if exists k, e :: Provides(profile, setup, k, e) && setup.dest + e.rel == p {
      var k, e :| Provides(profile, setup, k, e) && setup.dest + e.rel == p;
      InitializeConfigsRuns(fs, profile, setup);
      var ops := DeployOps(profile, setup);
      DeployOpsComplete(profile, setup, k, e);
      var i :| 0 <= i < |ops| && ops[i] == OpFor(FolderOf(setup, profile[k].name), setup.dest, e);
      RunUpdates(fs, ops);
      UpdatesKeys(ops, p);
    }
  }
}

=== FILE: pathorder.dfy ===
/**
 * The order Python's `sorted` puts paths in: pathlib compares two paths
 * as the lists of their components, and lists and strings compare
 * lexicographically (strings by code point), a proper prefix first.
 */
module PathOrder {
  import opened Paths

  /** Python's `a < b` on `str`. */
  predicate StrLess(a: string, b: string)
    decreases |a|
  {
    |b| > 0 && (|a| == 0 || a[0] < b[0] || (a[0] == b[0] && StrLess(a[1..], b[1..])))
  }

  /** pathlib's `a < b`: lexicographic on the component lists. */
  predicate PathLess(a: Path, b: Path)
    decreases |a|
  {
    |b| > 0 && (|a| == 0 || StrLess(a[0], b[0]) || (a[0] == b[0] && PathLess(a[1..], b[1..])))
  }

  lemma {:induction false} StrLessIrreflexive(a: string)
    ensures !StrLess(a, a)
    decreases |a|
  {
    if |a| > 0 {
      StrLessIrreflexive(a[1..]);
    }
  }

  lemma {:induction false} StrLessTransitive(a: string, b: string, c: string)
    requires StrLess(a, b) && StrLess(b, c)
    ensures StrLess(a, c)
    decreases |a|
  {
    if |a| > 0 && a[0] == b[0] && b[0] == c[0] {
      StrLessTransitive(a[1..], b[1..], c[1..]);
    }
  }

  lemma {:induction false} StrLessTotal(a: string, b: string)
    ensures a == b || StrLess(a, b) || StrLess(b, a)
    decreases |a|
  {
    if |a| > 0 && |b| > 0 && a[0] == b[0] {
      StrLessTotal(a[1..], b[1..]);
      if a[1..] == b[1..] {
        assert a == [a[0]] + a[1..] && b == [b[0]] + b[1..];
      }
    }
  }

  lemma StrLessAsymmetric(a: string, b: string)
    requires StrLess(a, b)
    ensures !StrLess(b, a)
  {
    if StrLess(b, a) {
      StrLessTransitive(a, b, a);
      StrLessIrreflexive(a);
    }
  }

  lemma {:induction false} PathLessIrreflexive(a: Path)
    ensures !PathLess(a, a)
    decreases |a|
  {
    if |a| > 0 {
      StrLessIrreflexive(a[0]);
      PathLessIrreflexive(a[1..]);
    }
  }

  lemma {:induction false} PathLessTransitive(a: Path, b: Path, c: Path)
    requires PathLess(a, b) && PathLess(b, c)
    ensures PathLess(a, c)
    decreases |a|
  {
    if |a| > 0 {
      if StrLess(a[0], b[0]) {
        if StrLess(b[0], c[0]) {
          StrLessTransitive(a[0], b[0], c[0]);
        }
      } else if StrLess(b[0], c[0]) {
      } else {
        PathLessTransitive(a[1..], b[1..], c[1..]);
      }
    }
  }

  lemma {:induction false} PathLessTotal(a: Path, b: Path)
    ensures a == b || PathLess(a, b) || PathLess(b, a)
    decreases |a|
  {
    if |a| > 0 && |b| > 0 {
      StrLessTotal(a[0], b[0]);
      if a[0] == b[0] {
        PathLessTotal(a[1..], b[1..]);
        if a[1..] == b[1..] {
          assert a == [a[0]] + a[1..] && b == [b[0]] + b[1..];
        }
      }
    }
  }

  lemma PathLessAsymmetric(a: Path, b: Path)
    requires PathLess(a, b)
    ensures !PathLess(b, a)
  {
    if PathLess(b, a) {
      PathLessTransitive(a, b, a);
      PathLessIrreflexive(a);
    }
  }

  /** A directory sorts before everything below it: a proper prefix is the
      smaller list. */
  lemma {:induction false} ProperPrefixSortsFirst(a: Path, b: Path)
    requires IsProperPrefix(a, b)
    ensures PathLess(a, b)
    decreases |a|
  {
    if |a| > 0 {
      assert a[0] == b[0];
      assert b[1..][..|a| - 1] == a[1..];
      ProperPrefixSortsFirst(a[1..], b[1..]);
    }
  }
}

=== FILE: paths.dfy ===
/**
 * Resolved absolute paths and the string operations the deploy engine
 * performs on them: rendering a path as a string, parsing a string back
 * into components the way pathlib does, Python's `str.replace(pat, '')`
 * and `str.lstrip('/')`.
 */
module Paths {

  /** A resolved absolute path: the components below the filesystem root.
      The root itself is the empty sequence. */
  type Path = seq<string>

  /** pathlib's `parent`: the root is its own parent. */
  function Parent(p: Path): Path
  {
    if |p| == 0 then [] else p[..|p| - 1]
  }

  /** `b` lies strictly below `a`. */
  predicate IsProperPrefix(a: Path, b: Path)
  {
    |a| < |b| && b[..|a|] == a
  }

  /** A component of a resolved path: never empty, never `.` or `..`, no separator. */
  predicate ValidComponent(c: string)
  {
    |c| > 0 && '/' !in c && c != "." && c != ".."
  }

  predicate ValidPath(p: Path)
  {
    forall i :: 0 <= i < |p| ==> ValidComponent(p[i])
  }

  /** "/a/b" for [a, b]; the empty string for the root. */
  function Render(p: Path): string
  {
    if |p| == 0 then "" else "/" + p[0] + Render(p[1..])
  }

  /** `str(path)`: the root renders as "/". */
  function PathString(p: Path): string
  {
    if |p| == 0 then "/" else Render(p)
  }

  /* ---------------- pathlib's parse of a relative string ---------------- */

  /** A parsed chunk survives unless it is empty or ".". */
  function Keep(c: string): Path
  {
    if c == "" || c == "." then [] else [c]
  }

  /** Splits `s` at every '/', `cur` being the chunk read so far. */
  function Chunks(s: string, cur: string): (r: Path)
    requires '/' !in cur
    ensures forall i :: 0 <= i < |r| ==> |r[i]| > 0 && '/' !in r[i] && r[i] != "."
    decreases |s|
  {
    if |s| == 0 then Keep(cur)
    else if s[0] == '/' then Keep(cur) + Chunks(s[1..], "")
    else Chunks(s[1..], cur + [s[0]])
  }

  /** The components pathlib keeps when it parses `s`: repeated separators
      and "." components disappear. */
  function Split(s: string): (r: Path)
    ensures forall i :: 0 <= i < |r| ==> |r[i]| > 0 && '/' !in r[i] && r[i] != "."
  {
    Chunks(s, "")
  }

  /** `base / s` for a path string `s`: an absolute string replaces the base. */
  function ResolveAgainst(base: Path, s: string): Path
  {
    if |s| > 0 && s[0] == '/' then Split(s) else base + Split(s)
  }

  lemma {:induction false} ChunksWord(w: string, t: string, cur: string)
    requires '/' !in w && '/' !in cur
    ensures Chunks(w + t, cur) == Chunks(t, cur + w)
    decreases |w|
  {
    if |w| == 0 {
      assert w + t == t;
      assert cur + w == cur;
    } else {
      assert (w + t)[0] == w[0];
      assert (w + t)[1..] == w[1..] + t;
      assert cur + [w[0]] + w[1..] == cur + w;
      ChunksWord(w[1..], t, cur + [w[0]]);
    }
  }

  lemma {:induction false} ChunksRender(p: Path, cur: string)
    requires ValidPath(p) && '/' !in cur
    ensures Chunks(Render(p), cur) == Keep(cur) + p
    decreases |p|
  {
    if |p| == 0 {
      assert Keep(cur) + p == Keep(cur);
    } else {
      var s := Render(p);
      var tail := p[0] + Render(p[1..]);
      assert s == "/" + tail;
      assert s[0] == '/' && s[1..] == tail;
      ChunksWord(p[0], Render(p[1..]), "");
      assert "" + p[0] == p[0];
      ChunksRender(p[1..], p[0]);
      assert Keep(p[0]) == [p[0]];
      assert [p[0]] + p[1..] == p;
    }
  }

  /** Rendering a valid path and parsing it back gives the path. */
  lemma SplitRender(p: Path)
    requires ValidPath(p)
    ensures Split(Render(p)) == p
  {
    ChunksRender(p, "");
  }

  /** `str(p)` parses back to `p`, the root included. */
  lemma SplitPathString(p: Path)
    requires ValidPath(p)
    ensures Split(PathString(p)) == p
  {
    if |p| == 0 {
      assert Chunks("/", "") == Keep("") + Chunks("", "");
    } else {
      SplitRender(p);
    }
  }

  /** Rendering distributes over concatenation. */
  lemma {:induction false} RenderAppend(a: Path, b: Path)
    ensures Render(a + b) == Render(a) + Render(b)
    decreases |a|
  {
    if |a| == 0 {
      assert a + b == b;
    } else {
      assert (a + b)[0] == a[0];
      assert (a + b)[1..] == a[1..] + b;
      RenderAppend(a[1..], b);
    }
  }

  /* ---------------- str.lstrip('/') ---------------- */

  /** `s.lstrip('/')`: `s` without its leading separators. */
  function LStrip(s: string): (r: string)
    ensures |r| <= |s| && r == s[|s| - |r|..]
    ensures |r| == 0 || r[0] != '/'
    ensures forall i :: 0 <= i < |s| - |r| ==> s[i] == '/'
    decreases |s|
  {
    if |s| > 0 && s[0] == '/' then LStrip(s[1..]) else s
  }

  /** Leading separators never change what pathlib parses. */
  lemma {:induction false} SplitLStrip(s: string)
    ensures Split(LStrip(s)) == Split(s)
    decreases |s|
  {
    if |s| > 0 && s[0] == '/' {
      SplitLStrip(s[1..]);
      SplitSkipsSeparator(s);
    }
  }

  lemma SplitSkipsSeparator(s: string)
    requires |s| > 0 && s[0] == '/'
    ensures Split(s) == Split(s[1..])
  {
    assert Keep("") == [];
  }

  /* ---------------- str.replace(pat, '') ---------------- */

  /** `pat` occurs somewhere inside `t`. */
  predicate Occurs(t: string, pat: string)
    decreases |t|
  {
    |pat| <= |t| && (t[..|pat|] == pat || (|t| > 0 && Occurs(t[1..], pat)))
  }

  /** Python's `s.replace(pat, '')`: a left-to-right scan that deletes every
      non-overlapping occurrence of `pat`. An empty pattern changes nothing. */
  function RemoveAll(s: string, pat: string): (r: string)
    ensures |r| <= |s|
    decreases |s|
  {
    if |pat| == 0 || |s| < |pat| then s
    else if s[..|pat|] == pat then RemoveAll(s[|pat|..], pat)
    else [s[0]] + RemoveAll(s[1..], pat)
  }

  /** A string in which the pattern never occurs comes out unchanged. */
  lemma {:induction false} RemoveAllAbsent(t: string, pat: string)
    requires |pat| > 0 && !Occurs(t, pat)
    ensures RemoveAll(t, pat) == t
    decreases |t|
  {
    if |t| >= |pat| {
      assert t[..|pat|] != pat;
      RemoveAllAbsent(t[1..], pat);
      assert [t[0]] + t[1..] == t;
    }
  }

  /** A string that begins with the pattern loses that occurrence. */
  lemma RemoveAllLeading(pat: string, t: string)
    requires |pat| > 0
    ensures RemoveAll(pat + t, pat) == RemoveAll(t, pat)
  {
    assert (pat + t)[..|pat|] == pat;
    assert (pat + t)[|pat|..] == t;
  }

  /** A non-empty rendered path begins with a separator, so "/" occurs in it. */
  lemma RenderStartsWithSeparator(p: Path)
    requires |p| > 0
    ensures |Render(p)| > 0 && Render(p)[0] == '/'
    ensures Occurs(Render(p), "/")
  {
    assert Render(p) == "/" + p[0] + Render(p[1..]);
    assert Render(p)[..1] == "/";
  }
}

=== FILE: registry.dfy ===
/**
 * The settings-document operations of `main.py`: registering a mod,
 * duplicating a profile, the preset a new game starts from, and the list of
 * names shown before a commit.
 */
module Registry {
  import opened Wrappers
  import opened Paths
  import opened FileSystem
  import opened Settings
  import opened ModPack
  import opened Overlay
  import ModModel

  /* ---------------- add_row_to_mods ---------------- */

  /** `add_row_to_mods`: the registry maps `name` to `path` (an existing
      registration of that name is overwritten), and every profile gets one
      disabled entry for it at the end. */
  function AddRowToMods(gs: GameSetting, name: string, path: string): (r: GameSetting)
    ensures r.mods.Keys == gs.mods.Keys + {name} && r.mods[name] == path
    ensures forall n :: n in gs.mods && n != name ==> r.mods[n] == gs.mods[n]
    ensures r.profiles.Keys == gs.profiles.Keys
    ensures forall q :: q in gs.profiles ==>
              |r.profiles[q]| == |gs.profiles[q]| + 1
              && r.profiles[q][..|gs.profiles[q]|] == gs.profiles[q]
              && r.profiles[q][|gs.profiles[q]|] == Entry(name, false)
    ensures r.defaultModFolder == gs.defaultModFolder && r.gameModFolder == gs.gameModFolder
  {
    var profiles := map q | q in gs.profiles :: gs.profiles[q] + [Entry(name, false)];
    assert forall q :: q in gs.profiles ==> profiles[q][..|gs.profiles[q]|] == gs.profiles[q];
    gs.(mods := gs.mods[name := path], profiles := profiles)
  }

  /** A deploy depends on the registry only through the names of the
      enabled entries. */
  lemma {:induction false} SameForEnabled(fs: Fs, profile: Profile, s1: Setup, s2: Setup)
    requires s1.inputFolder == s2.inputFolder && s1.dest == s2.dest && s1.listings == s2.listings
    requires forall i :: 0 <= i < |profile| && profile[i].enabled ==>
               (profile[i].name in s1.mods <==> profile[i].name in s2.mods)
               && (profile[i].name in s1.mods ==> s1.mods[profile[i].name] == s2.mods[profile[i].name])
    ensures InitializeConfigs(fs, profile, s1) == InitializeConfigs(fs, profile, s2)
    decreases |profile|
  {
    if |profile| > 0 {
      var e := profile[0];
      if e.enabled && e.name in s1.mods {
        assert FolderOf(s1, e.name) == FolderOf(s2, e.name);
        assert TreeOf(s1, e.name) == TreeOf(s2, e.name);
        var r := AddMod(fs, FolderOf(s1, e.name), s1.dest, TreeOf(s1, e.name));
        if r.Success? {
          SameForEnabled(r.value, profile[1..], s1, s2);
        }
      } else if !e.enabled {
        SameForEnabled(fs, profile[1..], s1, s2);
      }
    }
  }

  /** Registering a mod changes no deploy of any profile, provided no enabled
      entry of that profile already uses the name: the new entries are
      disabled. */
  lemma AddRowKeepsDeploy(fs: Fs, gs: GameSetting, q: string, name: string, path: string, setup: Setup)
    requires q in gs.profiles && setup.mods == gs.mods
    requires forall i :: 0 <= i < |gs.profiles[q]| && gs.profiles[q][i].enabled ==> gs.profiles[q][i].name != name
    ensures var r := AddRowToMods(gs, name, path);
            InitializeConfigs(fs, r.profiles[q], setup.(mods := r.mods)) == InitializeConfigs(fs, gs.profiles[q], setup)
  {
    var r := AddRowToMods(gs, name, path);
    var p := gs.profiles[q];
    var s2 := setup.(mods := r.mods);
    assert r.profiles[q] == p + [Entry(name, false)];
    EnabledOnlyAppend(p, [Entry(name, false)]);
    assert EnabledOnly([Entry(name, false)]) == [];
    assert EnabledOnly(p + [Entry(name, false)]) == EnabledOnly(p);
    IgnoresDisabled(fs, p + [Entry(name, false)], s2);
    IgnoresDisabled(fs, p, s2);
    SameForEnabled(fs, p, s2, setup);
  }

  /* ---------------- create_new_mod_table_config ---------------- */

  /** Profile duplication, copying the current profile's list under the new
      name. A missing current profile is reported. */
  function DuplicateProfile(gs: GameSetting, current: string, newName: string): (r: Result<GameSetting, Error>)
    ensures r.Success? <==> current in gs.profiles
    ensures r.Failure? ==> r.error == MissingProfile(current)
    ensures r.Success? ==>
              && r.value.profiles.Keys == gs.profiles.Keys + {newName}
              && r.value.profiles[newName] == gs.profiles[current]
              && (forall q :: q in gs.profiles && q != newName ==> r.value.profiles[q] == gs.profiles[q])
              && r.value.mods == gs.mods
  {
    if current in gs.profiles then
      Success(gs.(profiles := gs.profiles[newName := gs.profiles[current]]))
    else Failure(MissingProfile(current))
  }

  /** Duplicating a profile under its own name changes nothing. */
  lemma DuplicateSameNameNoOp(gs: GameSetting, current: string)
    requires current in gs.profiles
    ensures DuplicateProfile(gs, current, current) == Success(gs)
  {
    assert gs.profiles[current := gs.profiles[current]] == gs.profiles;
  }

  /** The copy deploys exactly as the profile it was copied from. */
  lemma DuplicateDeploysSame(fs: Fs, gs: GameSetting, current: string, newName: string, setup: Setup)
    requires current in gs.profiles
    ensures InitializeConfigs(fs, DuplicateProfile(gs, current, newName).value.profiles[newName], setup)
         == InitializeConfigs(fs, gs.profiles[current], setup)
  {
  }

  /** The copy is a separate list: registering a mod afterwards appends one
      entry to each of the two profiles. */
  lemma DuplicateThenAddRow(gs: GameSetting, current: string, newName: string, name: string, path: string)
    requires current in gs.profiles && newName != current
    ensures var r := AddRowToMods(DuplicateProfile(gs, current, newName).value, name, path);
            r.profiles[current] == gs.profiles[current] + [Entry(name, false)]
            && r.profiles[newName] == gs.profiles[current] + [Entry(name, false)]
  {
    var d := DuplicateProfile(gs, current, newName).value;
    var r := AddRowToMods(d, name, path);
    assert r.profiles[current] == d.profiles[current] + [Entry(name, false)];
    assert r.profiles[newName] == d.profiles[newName] + [Entry(name, false)];
  }

  /** The copy is a separate list: ticking a box in the copy leaves the
      original profile as it was. */
  lemma DuplicateThenEditIndependent(gs: GameSetting, current: string, newName: string, row: nat, value: int)
    requires current in gs.profiles && newName != current
    requires ModModel.SetData(DuplicateProfile(gs, current, newName).value, newName, row, 0, value, ModModel.CheckStateRole).Success?
    ensures ModModel.SetData(DuplicateProfile(gs, current, newName).value, newName, row, 0, value, ModModel.CheckStateRole)
              .value.profiles[current] == gs.profiles[current]
  {
  }

  /* ---------------- create_new_game ---------------- */

  const BaseContentName: string := "Base content"

  /** The backup folder `.mods` sits next to the game's mod folder. */
  function BackupFolder(gameModFolder: Path): Path
  {
    Parent(gameModFolder) + [".mods"]
  }

  /** The base content is kept in `.mods/base_content`. */
  function BaseContentFolder(gameModFolder: Path): Path
  {
    BackupFolder(gameModFolder) + ["base_content"]
  }

  /** The document `create_new_game` writes for a newly chosen (resolved)
      game mod folder. */
  function NewGamePreset(gameModFolder: Path): (r: GameSetting)
    ensures r.profiles.Keys == {"default"} && r.profiles["default"] == [Entry(BaseContentName, true)]
    ensures r.mods.Keys == {BaseContentName}
  {
    GameSetting(
      PathString(BackupFolder(gameModFolder)),
      PathString(gameModFolder),
      map["default" := [Entry(BaseContentName, true)]],
      map[BaseContentName := PathString(BaseContentFolder(gameModFolder))])
  }

  /** The three folder strings of the preset parse back to the folders they
      name. */
  lemma NewGamePresetFolders(gameModFolder: Path)
    requires ValidPath(gameModFolder)
    ensures var r := NewGamePreset(gameModFolder);
            Split(r.gameModFolder) == gameModFolder
            && Split(r.defaultModFolder) == BackupFolder(gameModFolder)
            && Split(r.mods[BaseContentName]) == BaseContentFolder(gameModFolder)
  {
    var backup := BackupFolder(gameModFolder);
    var base := BaseContentFolder(gameModFolder);
    assert ValidPath(backup) by {
      assert forall i :: 0 <= i < |backup| - 1 ==> backup[i] == gameModFolder[i];
    }
    assert ValidPath(base) by {
      assert forall i :: 0 <= i < |base| - 1 ==> base[i] == backup[i];
    }
    SplitPathString(gameModFolder);
    SplitPathString(backup);
    SplitPathString(base);
  }

  /** Deploying the new game's only profile adds the base content and nothing
      else: the registered string resolves back to the base-content folder,
      whatever folder relative registrations are resolved against. */
  lemma NewGameDeploysBaseContent(fs: Fs, gameModFolder: Path, inputFolder: Path, dest: Path, listings: map<Path, Tree>)
    requires ValidPath(Parent(gameModFolder))
    ensures var preset := NewGamePreset(gameModFolder);
            var base := BaseContentFolder(gameModFolder);
            InitializeConfigs(fs, preset.profiles["default"], Setup(preset.mods, inputFolder, dest, listings))
            == AddMod(fs, base, dest, if base in listings then listings[base] else [])
  {
    var preset := NewGamePreset(gameModFolder);
    var base := BaseContentFolder(gameModFolder);
    var setup := Setup(preset.mods, inputFolder, dest, listings);
    var s := PathString(base);
    RenderStartsWithSeparator(base);
    SplitRender(base);
    assert FolderOf(setup, BaseContentName) == base;
    var profile := preset.profiles["default"];
    assert profile[1..] == [];
    var r := AddMod(fs, base, dest, TreeOf(setup, BaseContentName));
    if r.Success? {
      assert InitializeConfigs(r.value, profile[1..], setup) == Success(r.value);
    }
  }

  /** Clearing the game's mod folder never touches the base content, unless
      the chosen folder is itself called `.mods`. */
  lemma BaseContentOutsideTarget(gameModFolder: Path)
    requires |gameModFolder| > 0 && gameModFolder[|gameModFolder| - 1] != ".mods"
    ensures !IsProperPrefix(gameModFolder, BaseContentFolder(gameModFolder))
    ensures gameModFolder != BaseContentFolder(gameModFolder)
  {
    var n := |gameModFolder|;
    var base := BaseContentFolder(gameModFolder);
    assert base[n - 1] == ".mods";
  }

  /* ---------------- the enabled names of letsgo_mydudes ---------------- */

  /** `[x.get('name') for x in profile if x.get('enabled')]`: the names of
      the enabled entries, one by one in profile order. */
  function EnabledNames(profile: Profile): (r: seq<string>)
    ensures |r| == |EnabledOnly(profile)|
    ensures forall k :: 0 <= k < |r| ==> r[k] == EnabledOnly(profile)[k].name
    decreases |profile|
  {
    if |profile| == 0 then []
    else (if profile[0].enabled then [profile[0].name] else []) + EnabledNames(profile[1..])
  }

  /** A name is listed exactly when some enabled entry carries it. */
  lemma {:induction false} EnabledNamesMembers(profile: Profile, n: string)
    ensures n in EnabledNames(profile) <==> exists i :: 0 <= i < |profile| && profile[i].enabled && profile[i].name == n
    decreases |profile|
  {
    if |profile| > 0 {
      EnabledNamesMembers(profile[1..], n);
      if exists i :: 0 <= i < |profile| - 1 && profile[1..][i].enabled && profile[1..][i].name == n {
        var i :| 0 <= i < |profile| - 1 && profile[1..][i].enabled && profile[1..][i].name == n;
        assert profile[i + 1] == profile[1..][i];
      }
      if exists i :: 0 <= i < |profile| && profile[i].enabled && profile[i].name == n {
        var i :| 0 <= i < |profile| && profile[i].enabled && profile[i].name == n;
        if i > 0 {
          assert profile[1..][i - 1] == profile[i];
        }
      }
    }
  }

  /** Every listed name is registered exactly when the deploy finds every
      enabled mod in the registry. */
  lemma EnabledNamesRegistered(profile: Profile, mods: map<string, string>)
    ensures (forall n :: n in EnabledNames(profile) ==> n in mods) <==> AllRegistered(profile, mods)
  {
    forall n | n in EnabledNames(profile)
      ensures exists i :: 0 <= i < |profile| && profile[i].enabled && profile[i].name == n
    {
      EnabledNamesMembers(profile, n);
    }
    forall i | 0 <= i < |profile| && profile[i].enabled
      ensures profile[i].name in EnabledNames(profile)
    {
      EnabledNamesMembers(profile, profile[i].name);
    }
  }
}

=== FILE: settings.dfy ===
/**
 * The per-game settings document (`game_setting.json`), held in memory
 * as a typed record instead of a nested dictionary.
 */
module Settings {

  /** One line of a profile: `{"name": ..., "enabled": ...}`. */
  datatype Entry = Entry(name: string, enabled: bool)

  /** An ordered profile; later entries override earlier ones. */
  type Profile = seq<Entry>

  datatype GameSetting = GameSetting(
    defaultModFolder: string,
    gameModFolder: string,
    profiles: map<string, Profile>,
    mods: map<string, string>)

  /** `[x for x in profile if x.get('enabled')]`. */
  function EnabledOnly(profile: Profile): (r: Profile)
    ensures |r| <= |profile|
    ensures forall e :: e in r <==> e in profile && e.enabled
  {
    if |profile| == 0 then []
    else (if profile[0].enabled then [profile[0]] else []) + EnabledOnly(profile[1..])
  }

  /** The filter keeps profile order: it distributes over concatenation. */
  lemma {:induction false} EnabledOnlyAppend(a: Profile, b: Profile)
    ensures EnabledOnly(a + b) == EnabledOnly(a) + EnabledOnly(b)
    decreases |a|
  {
    if |a| == 0 {
      assert a + b == b;
    } else {
      assert (a + b)[0] == a[0];
      assert (a + b)[1..] == a[1..] + b;
      EnabledOnlyAppend(a[1..], b);
    }
  }
}

=== FILE: wrappers.dfy ===
/** Failure-carrying datatypes shared by every module of the model. */
module Wrappers {

  /** A value that may be absent; `None` also stands for Python's `None`. */
  datatype Option<+T> = None | Some(value: T)

  /** The outcome of an operation that can raise: a value, or the error raised. */
  datatype Result<+T, +E> = Success(value: T) | Failure(error: E)
}
